=== FILE: README.md ===
# otpgen keystore, modelled in Dafny

`otpgen` is a command-line one-time-password generator. It keeps its OTP
secrets in one encrypted file, `~/.otpgen_keystore`, which holds a 16-byte
random salt followed by a Fernet token. The token decrypts to the records, one
text line per record, joined with `"\n"`:

    {id} {secret} {type} {issuer} {label} {counter}

Every command reads the file with the typed password (`decrypt_store`) and
works on the list of lines. An add with complete data, every import that gets
past its items, a removal that matches a line and an HOTP code then write the
whole file back under a fresh salt (`encrypt_store`). A TOTP code, an export,
a QR code, a removal that matches no line and every failed command write
nothing to the keystore. This project models that core of `otpgen/otpgen.py`
and proves properties of the model:

- the file envelope and its read-back;
- the line format, as Python's `str.split()`, `strip()` and `splitlines()` see it;
- `add_key`, `generate_token` (TOTP, and HOTP with its counter advance) and `remove_key`;
- `export_keys` and `import_keys`;
- the `otpauth://` URI that `generate_qr` encodes, including `urllib.parse.quote`;
- whole command runs, as traces of what is written to disk and what is shown to the user.

Facts of the code the model keeps:

- a new id is `len(store) + 1`, so an id is reused after a removal (`Keystore.IdReusedAfterRemoval`);
- `add_key` and `import_keys` never check for a duplicate id or secret;
- `remove_key` drops every line starting with `"{id} "`;
- a record's words are whatever `split()` yields, with whitespace as Python's `str.isspace` defines it (the Unicode spaces included);
- the keystore file is rewritten in place by one write;
- `import_keys` with a format other than `json` or `csv` imports nothing but still rewrites the file;
- a JSON export stops at the first line with fewer than five words.

Files, each one module:

| file | module | contents |
|---|---|---|
| `wrappers.dfy` | `Wrappers` | `Option`, `Result` |
| `text.dfy` | `PyText` | `isspace`, `strip`, `split`, `splitlines`, `join`; the line-format lemmas |
| `numbers.dfy` | `PyInt` | `str(int)` and `int(str)` |
| `utf8.dfy` | `Utf8` | `str.encode()` and strict `bytes.decode()` |
| `envelope.dfy` | `Envelope` | `encrypt_store` / `decrypt_store` |
| `keystore.dfy` | `Keystore` | `add_key`, `generate_token`, `remove_key` on the list of lines |
| `transfer.dfy` | `Transfer` | `export_keys`, `import_keys` |
| `uri.dfy` | `Uri` | `quote`, the provisioning URI, `generate_qr`'s choice of line, reading a label back |
| `session.dfy` | `Session` | whole runs of the commands that write the file |

The following become function-valued parameters:

- PBKDF2-HMAC-SHA256 key derivation and Fernet, as `Envelope.Crypto`;
- `pyotp`'s TOTP and HOTP, as `Keystore.OtpEngine`.

The one property assumed of Fernet is its round trip: a token is never empty,
and it decrypts, under the key that made it, to the plaintext. It appears as
the predicate `Envelope.FernetRoundTrip`, required by the lemmas that need it.

## Model

| member | source | states |
|---|---|---|
| Envelope.Unseal | otpgen/otpgen.py:165-169 | A file shorter than 17 bytes is refused as too short, and nothing longer is. Otherwise the first 16 bytes are the salt and the rest is a non-empty token, and the two concatenated give the file back. |
| Envelope.UnsealSeal | otpgen/otpgen.py:145-150 | Cutting a written file at byte 16 returns exactly the 16-byte salt and the non-empty token that were written. |
| Envelope.Seal | otpgen/otpgen.py:145-150 | The file written is the salt followed by the token: its first bytes are exactly the salt and the rest exactly the token. |
| Envelope.Persist | otpgen/otpgen.py:145-150 | The file written begins with the fresh salt, the salt the next read derives its key from. |
| Envelope.Working | otpgen/otpgen.py:66 | After a failed read, a command works on the empty list the new instance started with. After a successful read, it works on the records read. |
| Envelope.Load | otpgen/otpgen.py:152-182 | A missing file gives "not found". A file under 17 bytes gives "too short", whatever the cipher would say. What a successful read yields is a reloadable store: no line holds a line break, the first line starts and the last line ends with a non-whitespace character. |
| Envelope.LoadPersist | otpgen/otpgen.py:142-174 | Reading a file back with the password it was written under yields `strip().splitlines()` of the joined records. That is exactly the records written if and only if the store is reloadable. This holds for every store (the empty store included), every 16-byte salt and every nonce, assuming only Fernet's round trip (a non-empty token that decrypts to the plaintext). |
| PyText.StoreTextRoundTrip | otpgen/otpgen.py:148-173 | `"\n".join(lines)`, then `strip()`, then `splitlines()` returns the lines for every reloadable store. Such a store has no line breaks in any line, and its outer ends are not whitespace. Its interior lines may be empty or padded. |
| PyText.StoreTextRoundTripExact | otpgen/otpgen.py:148-173 | The join, strip and `splitlines()` give the lines back if and only if the store is reloadable. So a last line ending in a space, for example, does not survive a save and a load. |
| PyText.StrippedLinesReloadable | otpgen/otpgen.py:173 | Whatever text is decrypted, `strip().splitlines()` of it is a reloadable store. |
| PyText.SplitLinesLast | otpgen/otpgen.py:173 | Suppose the text is non-empty and does not end in a line boundary. Then the last line of `splitlines()` ends with the text's last character. |
| PyText.TrailingWsNotReloadable | otpgen/otpgen.py:173 | A store whose last line ends with whitespace is not reloadable. |
| PyText.SplitJoinSp | otpgen/otpgen.py:313 | `split()` of words joined by single spaces gives back exactly those words. |
| PyText.FieldsOfJoinSp | otpgen/otpgen.py:293 | `line.strip().split()` of a line joined from words gives back the words, and the line is well formed. |
| PyText.Strip | otpgen/otpgen.py:173 | `strip()` leaves no whitespace at either end, never lengthens the text, and leaves text unchanged when it has none at its ends. |
| PyText.StripDrops | otpgen/otpgen.py:173 | `strip()` removes whitespace only: its result is the infix of the text that starts right after the leading whitespace, and every character before or after that infix is whitespace. |
| PyText.SplitWs | otpgen/otpgen.py:293 | Every item of `split()` is a non-empty word without whitespace. |
| PyText.SplitWsEmpty | otpgen/otpgen.py:293-294 | `split()` finds no word exactly when the text is all whitespace, so `parts` is empty only for a blank line. |
| PyText.JoinSp | otpgen/otpgen.py:313 | `" ".join` of no words is empty. Otherwise the line starts with the first word and ends with the last. |
| PyText.JoinLines | otpgen/otpgen.py:148 | `"\n".join` of no lines is empty. Otherwise the text starts with the first line, ends with the last, and has a newline right after the first when there are two or more. |
| PyText.SplitLines | otpgen/otpgen.py:173 | No line of `splitlines()` holds a line boundary. There are no lines exactly when the text is empty. The text starts with the first line, and text without a boundary is one line. |
| Utf8.Encode | otpgen/otpgen.py:148 | The encoding is never shorter than the text and is empty exactly when the text is. ASCII text takes one byte per character. |
| Utf8.Decode | otpgen/otpgen.py:172 | A successful decoding never has more characters than bytes, and is empty exactly when the bytes are. ASCII bytes always decode, one character each. |
| Utf8.DecodeEncode | otpgen/otpgen.py:172 | Decoding the UTF-8 encoding of any string gives that string back. |
| PyInt.IntToString | otpgen/otpgen.py:270 | `str(i)` is one word of a record line. It starts with `-` exactly when `i` is negative. |
| PyInt.ParseInt | otpgen/otpgen.py:310 | `int()` accepts only non-empty text ending in a digit. A negative value was written with `-`. A run of digits with single underscores between them reads as its value. |
| PyInt.ParseIntAccepts | otpgen/otpgen.py:310 | Every character after the first of a text `int()` accepts is a digit or an underscore. |
| PyInt.ParseIntToString | otpgen/otpgen.py:310-312 | `int(str(i)) == i` for every integer, so the counter written back reads as the next counter. |
| Keystore.NextId | otpgen/otpgen.py:270 | The new id is one word, and `int()` reads it as the number of lines plus one. |
| Keystore.AddKey | otpgen/otpgen.py:260-272 | The record is refused exactly when the secret, type or label is empty. Otherwise exactly one line is appended after the unchanged old lines. It is the record line of the next id, the four values and counter `"0"`. When the four values are single words it reads back as exactly those six words. |
| Keystore.RecordLine | otpgen/otpgen.py:271 | The record line starts with the id and a space, and ends with the counter. |
| Keystore.RecordLineFields | otpgen/otpgen.py:271 | A record line of six words reads back as exactly those six words and is a well-formed line. |
| Keystore.RecordLineWellFormed | otpgen/otpgen.py:271 | Take a record line with a one-word id and counter and other values free of line breaks. It is well formed, even when those values are empty or hold spaces. |
| Keystore.AddKeyFields | otpgen/otpgen.py:269-271 | When secret, type, issuer and label are single words, the appended line reads back as `[next id, secret, type, issuer, label, "0"]`. |
| Keystore.AddKeyPreservesWellFormed | otpgen/otpgen.py:269-272 | Adding a record of single words keeps every line of the keystore well formed. |
| Keystore.AddKeyPreservesReloadable | otpgen/otpgen.py:267-272 | Adding a record whose values hold no line breaks keeps a reloadable keystore reloadable. This covers an empty issuer and values with spaces. |
| Keystore.EmptyIssuerShiftsColumns | otpgen/otpgen.py:259-271 | With an empty issuer, the appended line reads back as five words. The label sits in the issuer column and `"0"` in the label column. |
| Keystore.EmptyIssuerHotpUnusable | otpgen/otpgen.py:305-309 | An HOTP record added with an empty issuer makes the first `generate_token` for its id fail with "Missing HOTP counter", every time. |
| Keystore.AddKeyChecked | otpgen/otpgen.py:260-271 | It accepts exactly when all four values are single words. Where it accepts, it writes what `add_key` writes, and the new line reads back as those words. It keeps the keystore well formed. |
| Keystore.FindId | otpgen/otpgen.py:292-294 | The line found is the first whose first word is the id. "None" means no line has that id. |
| Keystore.FindIdOfFirstMatch | otpgen/otpgen.py:292-294 | Whichever line is the first match, `FindId` returns it. |
| Keystore.AdvancedLine | otpgen/otpgen.py:312-313 | The rewritten line reads back as the old words with the sixth replaced by `str(counter + 1)`, and it is a well-formed line. |
| Keystore.UseHotp | otpgen/otpgen.py:306-314 | The counter is read with `int()` and the code is computed at that counter. That line alone changes, and only in its sixth word, which becomes the counter plus one. If `int()` or pyotp raises, the result is the generic failure and no new store. |
| Keystore.GenerateToken | otpgen/otpgen.py:289-339 | "Not found" exactly when no line has the id. A TOTP code comes from the first matching line and its secret. An HOTP code is as `UseHotp` states. |
| Keystore.GenerateCases | otpgen/otpgen.py:295-317 | Once the first match is fixed, the outcome follows the source's branch order: under five words, TOTP, HOTP with five words, an unreadable counter, another type. |
| Keystore.GenerateHotpAt | otpgen/otpgen.py:306-314 | Conversely, if the first match is HOTP with a readable counter `c` and pyotp accepts, the result is the HOTP code at `c`. |
| Keystore.GeneratePreservesWellFormed | otpgen/otpgen.py:312-313 | Advancing a counter keeps the keystore well formed. |
| Keystore.GeneratePreservesReloadable | otpgen/otpgen.py:310-314 | Every outcome of `generate_token` keeps a reloadable keystore reloadable. |
| Keystore.HotpCounterAdvances | otpgen/otpgen.py:310-314 | Two consecutive runs for one HOTP record use the same line and counters `c` and `c + 1`. `Keystore.HotpStep` gives the invariant for any number of runs. |
| Keystore.HotpStep | otpgen/otpgen.py:306-314 | Suppose the first match is an HOTP record whose counter reads as `c`. One run then shows the code at `c` and leaves the same record, with the same secret, ready at `c + 1`. Runs therefore use `c`, `c + 1`, `c + 2`, ... in order. |
| Keystore.Keep | otpgen/otpgen.py:344 | The survivors are exactly the lines not starting with the prefix. There are fewer lines exactly when some line started with it. |
| Keystore.KeepAppend | otpgen/otpgen.py:344 | The filter commutes with concatenation, so survivors keep their relative order. |
| Keystore.RemoveKey | otpgen/otpgen.py:341-350 | "Nothing removed", with no rewrite, exactly when no line starts with `"{id} "`. Otherwise the new store is exactly the lines not starting with it, in their old order. |
| Keystore.RemovePreservesWellFormed | otpgen/otpgen.py:344-349 | Removal keeps the keystore well formed. |
| Keystore.RemovedLineMatchesId | otpgen/otpgen.py:344 | For an id that is a single word (non-empty, no whitespace), every line removal drops is one `generate_token` would take for the same id. |
| Keystore.IdReusedAfterRemoval | otpgen/otpgen.py:270 | Suppose one line is removed. The next record added then gets the same id as the last existing record, which is still present. |
| Transfer.JsonEntry | otpgen/otpgen.py:366-374 | The JSON object of a line maps the six keys to words 1 to 5 and, when present, word 6. Otherwise the counter is `""`. |
| Transfer.CsvRow | otpgen/otpgen.py:386 | A CSV row is the words padded with `""` to six cells. It is never truncated. |
| Transfer.ExportKeys | otpgen/otpgen.py:352-390 | An empty store gives "no data", checked before the format. An unknown format gives "unsupported". JSON succeeds exactly when every line has at least five words, and otherwise names a line that has fewer. CSV is the header plus one padded row per line. |
| Transfer.ExportJson | otpgen/otpgen.py:363-378 | The JSON branch succeeds exactly when every line has at least five words. It then gives one object per line, in order; otherwise it names a line with fewer. |
| Transfer.DictRows | otpgen/otpgen.py:405-408 | `csv.DictReader` yields one item per non-blank row after the header, in order: the number of items is the number of data rows minus the blank ones. Each item is that row read under the header. |
| Transfer.DataRows | otpgen/otpgen.py:407-408 | The rows read are the non-blank ones, each one of the input's: their number is the rows' minus the blank ones, and a table without blank rows is read whole. |
| Transfer.BlankRowSkipped | otpgen/otpgen.py:407-408 | Inserting a blank row anywhere changes nothing that is read. |
| Transfer.BlankLineAddsNoItem | otpgen/otpgen.py:407-411 | A blank line anywhere after the header of a CSV import adds no item and changes none. |
| Transfer.CsvExportHasNoBlankRow | otpgen/otpgen.py:380-388 | No data row of a CSV export is blank, so reading it back skips none. |
| Transfer.ImportKeys | otpgen/otpgen.py:393-415 | For JSON or CSV, success exactly when every item has the five keys read. The old lines are kept and one line per item is appended. Another format leaves the records as they are. On failure, the first item lacking a key is reported. |
| Transfer.ImportLine | otpgen/otpgen.py:401-411 | The imported line starts with the new id and a space. When every value is a single word, it reads back as exactly the id, secret, type, issuer, label and counter. |
| Transfer.NewEntries | otpgen/otpgen.py:396-412 | One line per item, in order: item `j` is written with id `count + 1 + j`, as `len(self.store) + len(new_entries) + 1` gives. |
| Transfer.ImportIds | otpgen/otpgen.py:401-409 | The imported lines' ids are consecutive and continue from the number of existing lines. |
| Transfer.ImportedEntryFields | otpgen/otpgen.py:366-374 | Importing a line's JSON object writes a line whose words are the new id, then words 2 to 6 of the original (2 to 5 when it has only five). |
| Transfer.ImportKeepsReloadable | otpgen/otpgen.py:400-414 | Import keeps a reloadable keystore reloadable when no value holds a line break and the last item's counter is one word. Interior items may have an empty counter. |
| Transfer.ImportEmptyCounterLast | otpgen/otpgen.py:400-411 | Suppose the last item imported has an empty counter. Then the last line written ends with a space, and the store is not reloadable: that record does not read back as written. |
| Transfer.ExportImportRoundTrip | otpgen/otpgen.py:352-415 | Export to JSON and then import into any keystore succeeds and keeps its lines. Every record comes back with a fresh id and the same secret, type, issuer, label and, when it had one, counter. |
| Transfer.CsvExportMatchesJson | otpgen/otpgen.py:380-388 | Reading the CSV export with `DictReader` gives exactly the JSON export's objects. |
| Transfer.DictRowOfCsvRow | otpgen/otpgen.py:405-410 | One padded CSV row read under the header is the JSON object of the same line. |
| Uri.HexDigit | otpgen/otpgen.py:431 | The digit `quote` writes is a hex digit whose value is the nibble. |
| Uri.PercentByte | otpgen/otpgen.py:431 | `%HH` denotes exactly the byte it encodes. |
| Uri.QuoteBytes | otpgen/otpgen.py:431 | Quoted text consists only of safe characters, `%` and hex digits. |
| Uri.UnquoteQuote | otpgen/otpgen.py:431 | Percent-decoding and then UTF-8 decoding the quoted text gives the original string back, for every string. |
| Uri.QuoteInjective | otpgen/otpgen.py:431 | Different labels (or issuers) never quote to the same text. |
| Uri.QuoteSafe | otpgen/otpgen.py:431 | A string of safe characters is left unchanged. |
| Uri.QuoteUnsafeHead | otpgen/otpgen.py:431 | A string starting with an unsafe character quotes to text starting with `%`. |
| Uri.Quote | otpgen/otpgen.py:431 | The quoted text holds only safe characters, `%` and hex digits, so no space, `?`, `#` or `&`. |
| Uri.ProvisioningUri | otpgen/otpgen.py:431 | The URI starts with `otpauth://`, the type and `/`, and ends with `&issuer=` and the quoted issuer. |
| Uri.ProvisioningUriInjective | otpgen/otpgen.py:431 | The URI determines type, label, secret and issuer, when the type has no `/` and the secret no `&`. |
| Uri.QrUri | otpgen/otpgen.py:427-431 | The URI is built from the first line with the id and at least five words. "None" means there is no such line. |
| Uri.QrSkipsShortMatch | otpgen/otpgen.py:427-429 | On a short first match, `generate_token` stops with "missing fields", but `generate_qr` goes on: any line it finds is a later one. |
| Uri.UriPathOfProvisioning | otpgen/otpgen.py:254-255 | `urlparse`'s path of a provisioning URI is `/` followed by the quoted label. |
| Uri.UriPath | otpgen/otpgen.py:254-255 | A path is found exactly for `otpauth://` URIs. It holds no `?` or `#`, and starts with `/` when not empty. |
| Uri.QrLabelAsWritten | otpgen/otpgen.py:254-255 | A label is read exactly from `otpauth://` URIs, and has no `/` at either end. |
| Uri.QrLabelAsWrittenDiffers | otpgen/otpgen.py:255 | A label starting with a character `quote` encodes (not `%`) is read back from the QR code as different text, starting with `%`. |
| Uri.QrLabelRoundTrip | otpgen/otpgen.py:255 | The corrected reading gives back every label exactly. |
| Session.LoadedSave | otpgen/otpgen.py:142-174 | A later run with the same password reads exactly what an earlier run wrote if and only if the store written is reloadable. |
| Session.LoadedReloadable | otpgen/otpgen.py:152-182 | The records a run works on are always reloadable: those read, or the empty list after a failed read. |
| Session.AddCommand | otpgen/otpgen.py:260-273 | The file is written once exactly when secret, type and label are non-empty. Nothing is shown. |
| Session.AddCommandRecords | otpgen/otpgen.py:260-273 | For any loaded keystore, what `add_key` writes reads back as the records loaded plus the new record line, when the values hold no line breaks. This includes an empty issuer and values with spaces. |
| Session.AddAfterFailedLoad | otpgen/otpgen.py:152-182 | After any failed read, `add_key` writes a file holding the new record alone, with id 1. |
| Session.MistypedPasswordLosesRecords | otpgen/otpgen.py:176-178 | A keystore of records written under `[1]`, then `add_key` run with `[2]`, leaves a file holding only the new record. The old password no longer opens it. |
| Session.AddCommandSafe | otpgen/otpgen.py:260-273 | It writes exactly when the file is readable (or absent) and all four values are single words. |
| Session.AddCommandSafeKeepsRecords | otpgen/otpgen.py:260-273 | It never writes over an unreadable file. For any loaded keystore, what it writes reads back as all old records plus the new one, in the words given. |
| Session.GenerateCommand | otpgen/otpgen.py:303-319 | Nothing is written or shown on failure. A TOTP code is shown with nothing written. An HOTP run writes first and shows the code last. |
| Session.HotpPersistedBeforeReveal | otpgen/otpgen.py:312-319 | For any loaded keystore, the file already holds the advanced counter when an HOTP code is shown. It reads back as exactly the store `generate_token` built. |
| Session.NextRunUsesNextCounter | otpgen/otpgen.py:310-319 | For any loaded keystore, the next run for the same HOTP record reads the file just written and shows the code at counter + 1. |
| Session.RemoveCommand | otpgen/otpgen.py:341-350 | The file is written exactly when some line starts with `"{id} "`. |
| Session.RemoveCommandRecords | otpgen/otpgen.py:344-349 | What `remove_key` writes reads back as exactly the surviving lines in order if and only if the survivors form a reloadable store. This always holds when every loaded line is well formed. |
| Session.ImportCommand | otpgen/otpgen.py:393-415 | Nothing is written exactly when a JSON or CSV item lacks a key. An unknown format still rewrites the file. |
| Session.ImportCommandRecords | otpgen/otpgen.py:400-414 | What `import_keys` writes reads back as exactly the records it built if and only if they form a reloadable store. For an unknown format, it reads back as the records loaded. |
| Session.ImportCommandSafe | otpgen/otpgen.py:393-415 | The guarded import never writes over an existing file it could not read. |

## Left out

- `get_password` (otpgen/otpgen.py:113-130): the password prompt and its three attempts are not modelled. The password is a parameter of each run.
- `derive_key`, Fernet and `os.urandom`: PBKDF2-HMAC-SHA256 with 100000 iterations, Fernet's AES and HMAC, and the salt source are parameters. Only Fernet's round trip, with a non-empty token, is assumed.
- Fernet's own IV and timestamp are folded into one `nonce` parameter.
- Token expiry is not modelled; the source never sets a TTL.
- Envelope.Load: models the generic `except Exception` branch only for a plaintext that is not valid UTF-8. The file read itself failing is not modelled.
- Writing the file is one `Wrote` event. An interrupted or partial write, permissions and the file path are not modelled.
- pyotp: TOTP's clock and the HOTP/TOTP algorithms are parameters (`OtpEngine`). Their failure is `None`.
- Clipboard, `platform_check`, `success`/logging, `install`, `clean_install`, `install_dependencies`, `list_keys`, `main`/argparse and `VERSION` are left out. They are terminal and installer plumbing that does not touch the records' logic.
- QR image decoding (zbarlight, pyzbar, PIL) is not modelled. `add_key` is modelled from the point where the secret, type, issuer and label are known.
- Reading the secret and issuer with `parse_qs` is not modelled; only the label's path is.
- `UriPath` models `urlparse` only for `otpauth://` URIs. `urlparse` splits `;params` only for the schemes in `uses_params`, and `otpauth` is not one of them, so the path runs to the first `?` or `#`.
- Rendering and saving the QR image, the output file name and opening a viewer are left out.
- The JSON and CSV text (`json.dump`/`json.load`, `csv.writer`/`DictReader` quoting) is not modelled. Export yields the objects or rows, and import consumes items whose values are already text.
- A JSON item with a non-string value is not modelled: `str()` of a number would print it.
- `DictReader`'s `restkey` for surplus cells, and keys other than the six, are not represented. The import never reads them.
- Transfer.ExportKeys: the IndexError a short line raises in JSON export is modelled as an error value. The CSV branch's partial file on disk is not modelled.
- `int()` accepts only ASCII digits here; Unicode digits are not modelled.
- Session.AddCommandRecords: values holding a line break are not covered. Such a record reads back as two or more lines.
- Session.ImportCommand: the import path is read by the caller. A missing or unreadable import file is not modelled.

## Findings

| source | as written | input that shows it | evidently intended | confidence | as-written member | corrected member |
|---|---|---|---|---|---|---|
| otpgen/otpgen.py:269-271 | The record line is the six values joined by spaces, with no check that each value is one word. An empty issuer (allowed when the QR code has none) yields two adjacent spaces, and `split()` then reads five words. | An HOTP QR code without `issuer=`: the first `generate_token` for the new id fails with "Missing HOTP counter", every time. | Refuse, or normalise, any value that is not a single word, so that every record reads back as written. | medium, not executed | Keystore.EmptyIssuerHotpUnusable | Keystore.AddKeyChecked |
| otpgen/otpgen.py:152-182 | `decrypt_store` failing (wrong password, damaged file) leaves the store empty, and `add_key` and `import_keys` go on to write that empty store plus the new records over the keystore. | A keystore holding records, then `add_key` with a mistyped password: the file is replaced by one holding only the new record, readable only with the mistyped password. | Stop without writing when an existing keystore cannot be read. | high, not executed | Session.MistypedPasswordLosesRecords | Session.AddCommandSafeKeepsRecords |
| otpgen/otpgen.py:255 | `add_key` takes the label from the QR URI's path with `strip("/")` and no percent-decoding. `generate_qr` writes the label with `quote`, and the issuer is decoded by `parse_qs`. | A label `@home` exported by `generate_qr` and added back with `add_key` is stored as `%40home`. | Percent-decode the path, so that a QR code produced by `generate_qr` adds back the same label. | medium, not executed | Uri.QrLabelAsWrittenDiffers | Uri.QrLabelRoundTrip |

=== FILE: envelope.dfy ===
/** The keystore file: `salt(16) || Fernet token`, where the token encrypts the
    UTF-8 text of the records joined with `"\n"` under a key derived from the
    password and the salt (otpgen/otpgen.py `encrypt_store` and
    `decrypt_store`).

    The cryptography is not modelled: key derivation (PBKDF2-HMAC-SHA256 with
    100000 iterations, then base64url) and Fernet are the function-valued fields
    of `Crypto`, passed in by the caller. The one thing the model relies on about
    them is `FernetRoundTrip`, which lemmas take as a precondition. */
module Envelope {
  import opened Wrappers
  import opened Utf8
  import PyText

  /** `os.urandom(16)` draws the salt. */
  const SaltLength := 16
  /** `decrypt_store` rejects any file shorter than this before deriving a key. */
  const MinFileLength := 17

  /** The foreign cryptography, kept opaque.
      - `deriveKey(password, salt)`: the Fernet key for a password and salt.
      - `encrypt(key, plaintext, nonce)`: a Fernet token; `nonce` stands for the
        IV and timestamp Fernet draws itself.
      - `decrypt(key, token)`: the plaintext, or `None` for `InvalidToken`. */
  datatype Crypto = Crypto(
    deriveKey: (Bytes, Bytes) -> Bytes,
    encrypt: (Bytes, Bytes, Bytes) -> Bytes,
    decrypt: (Bytes, Bytes) -> Option<Bytes>)

  /** What Fernet guarantees and the model assumes: a token decrypts under the
      key that made it, and a token is never empty. */
  ghost predicate FernetRoundTrip(c: Crypto) {
    forall key, m, nonce ::
      c.decrypt(key, c.encrypt(key, m, nonce)) == Some(m) && |c.encrypt(key, m, nonce)| > 0
  }

  /** Why `decrypt_store` did not produce a store. */
  datatype LoadFailure =
    | Missing     // "Keystore file not found."
    | TooShort    // "Keystore file is too short or corrupted."
    | BadToken    // InvalidToken: "Incorrect password or corrupted keystore."
    | BadText     // the plaintext is not UTF-8 (the generic exception handler)

  /** The file contents `encrypt_store` writes: the salt in the clear, then the
      token. */
  function Seal(salt: Bytes, token: Bytes): (raw: Bytes)
    ensures |raw| == |salt| + |token|
    ensures raw[..|salt|] == salt && raw[|salt|..] == token
  {
    salt + token
  }

  /** `decrypt_store`'s split of the file into salt and token, after its length
      check. */
  function Unseal(raw: Bytes): (r: Result<(Bytes, Bytes), LoadFailure>)
    ensures r.Err? <==> |raw| < MinFileLength
    ensures r.Err? ==> r.error == TooShort
    ensures r.Ok? ==> |r.value.0| == SaltLength && |r.value.1| > 0
    ensures r.Ok? ==> Seal(r.value.0, r.value.1) == raw
  {
    if |raw| < MinFileLength then Err(TooShort)
    else Ok((raw[..SaltLength], raw[SaltLength..]))
  }

  /** Cutting the file at 16 bytes gives back the salt and token that were
      written, whenever the salt has its fixed length and the token is not
      empty. */
  lemma UnsealSeal(salt: Bytes, token: Bytes)
    requires |salt| == SaltLength && |token| > 0
    ensures Unseal(Seal(salt, token)) == Ok((salt, token))
  {
    var raw := Seal(salt, token);
    assert raw[..SaltLength] == salt;
    assert raw[SaltLength..] == token;
  }

  /** `"\n".join(self.store).encode()` */
  function Plaintext(store: seq<string>): Bytes {
    Encode(PyText.JoinLines(store))
  }

  /** The bytes `encrypt_store` writes for `store`, given the password, a fresh
      salt and Fernet's own randomness. */
  function Persist(store: seq<string>, password: Bytes, salt: Bytes, nonce: Bytes, c: Crypto): (raw: Bytes)
    ensures |raw| >= |salt| && raw[..|salt|] == salt
  {
    var key := c.deriveKey(password, salt);
    Seal(salt, c.encrypt(key, Plaintext(store), nonce))
  }

  /** `decrypt_store`: the records of the keystore file (`None` when it does
      not exist), or why there are none. The lines it yields always form a
      reloadable store, and a file shorter than 17 bytes is refused whatever
      the cipher would have said. */
  function Load(file: Option<Bytes>, password: Bytes, c: Crypto): (r: Result<seq<string>, LoadFailure>)
    ensures file.None? ==> r == Err(Missing)
    ensures file.Some? && |file.value| < MinFileLength ==> r == Err(TooShort)
    ensures r.Ok? ==> PyText.ReloadableStore(r.value)
  {
    match file
    case None => Err(Missing)
    case Some(raw) =>
      match Unseal(raw)
      case Err(e) => Err(e)
      case Ok((salt, token)) =>
        match c.decrypt(c.deriveKey(password, salt), token)
        case None => Err(BadToken)
        case Some(plain) =>
          match Decode(plain)
          case None => Err(BadText)
          case Some(text) =>
            PyText.StrippedLinesReloadable(text);
            Ok(PyText.SplitLines(PyText.Strip(text)))
  }

  /** The records a command goes on to work with after `decrypt_store`: the
      loaded ones, or the empty list the fresh `OTPGen` instance started with
      when loading failed (every command ignores `decrypt_store`'s return
      value). */
  function Working(r: Result<seq<string>, LoadFailure>): (store: seq<string>)
    ensures r.Err? ==> store == []
    ensures r.Ok? ==> store == r.value
  {
    match r
    case Ok(s) => s
    case Err(_) => []
  }

  /** Reading back a file written by `encrypt_store` under the same password
      always succeeds, with the lines `strip().splitlines()` finds in the
      joined records. Those are exactly the records written when the store is
      reloadable (the empty store included), and differ from them otherwise;
      this holds for every 16-byte salt and every nonce. */
  lemma LoadPersist(store: seq<string>, password: Bytes, salt: Bytes, nonce: Bytes, c: Crypto)
    requires FernetRoundTrip(c)
    requires |salt| == SaltLength
    ensures Load(Some(Persist(store, password, salt, nonce, c)), password, c)
            == Ok(PyText.SplitLines(PyText.Strip(PyText.JoinLines(store))))
    ensures Load(Some(Persist(store, password, salt, nonce, c)), password, c) == Ok(store)
            <==> PyText.ReloadableStore(store)
  {
    var key := c.deriveKey(password, salt);
    var token := c.encrypt(key, Plaintext(store), nonce);
    assert c.decrypt(key, token) == Some(Plaintext(store)) && |token| > 0;
    UnsealSeal(salt, token);
    DecodeEncode(PyText.JoinLines(store));
    PyText.StoreTextRoundTripExact(store);
  }
}

=== FILE: keystore.dfy ===
/** The record operations of otpgen/otpgen.py on the decrypted keystore, a list
    of text lines `id secret type issuer label counter`: `add_key` (the record it
    builds once the QR code has been read), `generate_token` with its HOTP
    counter advance, and `remove_key`. Each is a pure function from the loaded
    records to the records to write back, or to an error; reading and writing
    the file is `Envelope`, and the order of writing and revealing is
    `Session`. */
module Keystore {
  import opened Wrappers
  import opened PyText
  import opened PyInt

  /** The f-string `add_key` and `import_keys` write for a record,
      `f"{id} {secret} {type} {issuer} {label} {counter}"`: the six values
      joined by single spaces. */
  function RecordLine(id: string, secret: string, otpType: string, issuer: string,
                      accountLabel: string, counter: string): (line: string)
    ensures StartsWith(line, id + " ")
    ensures |counter| <= |line| && line[|line| - |counter|..] == counter
  {
    var fs := [id, secret, otpType, issuer, accountLabel, counter];
    assert fs == [id] + fs[1..];
    JoinSpCons(id, fs[1..]);
    assert JoinSp(fs)[..|id| + 1] == id + " ";
    JoinSp(fs)
  }

  /** The id of the next record: `str(len(self.store) + 1)`. It counts lines and
      is therefore reused once a record has been removed. */
  function NextId(store: seq<string>): (id: string)
    ensures IsField(id)
    ensures ParseInt(id) == Some(|store| + 1)
  {
    ParseIntToString(|store| + 1);
    IntToString(|store| + 1)
  }

  /** Whether `generate_token` and `generate_qr` take `line` for record
      `keyId`: its first word is `keyId`. */
  predicate IdMatches(line: string, keyId: string) {
    var parts := Fields(line);
    |parts| > 0 && parts[0] == keyId
  }

  // ---------------------------------------------------------------------------
  // add_key

  /** `add_key` refuses a QR code whose secret, type or label is empty
      ("Incomplete data in QR code."). */
  datatype AddError =
    | IncompleteData  // "Incomplete data in QR code."
    | NotAWord        // only `AddKeyChecked`: a value that is empty or holds whitespace

  /** `add_key` after the QR code has been decoded: the new record goes at the
      end with the next id and counter `"0"`; nothing else changes. The issuer
      may be empty. */
  function AddKey(store: seq<string>, secret: string, otpType: string, issuer: string,
                  accountLabel: string): (r: Result<seq<string>, AddError>)
    ensures r.Err? <==> secret == [] || otpType == [] || accountLabel == []
    ensures r.Ok? ==> |r.value| == |store| + 1 && r.value[..|store|] == store
    ensures r.Ok? ==> StartsWith(r.value[|store|], NextId(store) + " ")
    ensures r.Ok? ==> r.value[|store|] == RecordLine(NextId(store), secret, otpType, issuer, accountLabel, "0")
    ensures r.Ok? && IsField(secret) && IsField(otpType) && IsField(issuer) && IsField(accountLabel) ==>
              Fields(r.value[|store|]) == [NextId(store), secret, otpType, issuer, accountLabel, "0"]
  {
    if secret == [] || otpType == [] || accountLabel == [] then Err(IncompleteData)
    else
      var id := NextId(store);
      var line := RecordLine(id, secret, otpType, issuer, accountLabel, "0");
      assert IsField(secret) && IsField(otpType) && IsField(issuer) && IsField(accountLabel) ==>
               Fields(line) == [id, secret, otpType, issuer, accountLabel, "0"] by {
        if IsField(secret) && IsField(otpType) && IsField(issuer) && IsField(accountLabel) {
          assert IsField("0");
          RecordLineFields(id, secret, otpType, issuer, accountLabel, "0");
        }
      }
      Ok(store + [line])
  }

  /** A record line whose six values are all proper words reads back as those
      six words, and is a well-formed keystore line. */
  lemma RecordLineFields(id: string, secret: string, otpType: string, issuer: string,
                         accountLabel: string, counter: string)
    requires IsField(id) && IsField(secret) && IsField(otpType)
    requires IsField(issuer) && IsField(accountLabel) && IsField(counter)
    ensures Fields(RecordLine(id, secret, otpType, issuer, accountLabel, counter))
         == [id, secret, otpType, issuer, accountLabel, counter]
    ensures WellFormedLine(RecordLine(id, secret, otpType, issuer, accountLabel, counter))
  {
    var fs := [id, secret, otpType, issuer, accountLabel, counter];
    assert AllFields(fs);
    FieldsOfJoinSp(fs);
  }

  /** A record line holds a line boundary only if one of its values does. */
  lemma RecordLineNoBreaks(id: string, secret: string, otpType: string, issuer: string,
                           accountLabel: string, counter: string)
    requires NoBreaks(id) && NoBreaks(secret) && NoBreaks(otpType)
    requires NoBreaks(issuer) && NoBreaks(accountLabel) && NoBreaks(counter)
    ensures NoBreaks(RecordLine(id, secret, otpType, issuer, accountLabel, counter))
  {
    JoinNoBreaks([id, secret, otpType, issuer, accountLabel, counter], " ");
  }

  /** A record line is a well-formed keystore line whatever spaces its
      values hold, as long as none holds a line boundary: it starts with the
      id and ends with the counter. */
  lemma RecordLineWellFormed(id: string, secret: string, otpType: string, issuer: string,
                             accountLabel: string, counter: string)
    requires IsField(id) && IsField(counter)
    requires NoBreaks(secret) && NoBreaks(otpType) && NoBreaks(issuer) && NoBreaks(accountLabel)
    ensures WellFormedLine(RecordLine(id, secret, otpType, issuer, accountLabel, counter))
  {
    FieldNoBreaks(id);
    FieldNoBreaks(counter);
    RecordLineNoBreaks(id, secret, otpType, issuer, accountLabel, counter);
    var line := RecordLine(id, secret, otpType, issuer, accountLabel, counter);
    assert line[0] == id[0];
    assert line[|line| - 1] == counter[|counter| - 1];
  }

  /** When the secret, type, issuer and label are proper words, the line
      `add_key` appends reads back as exactly
      `[str(len(store) + 1), secret, type, issuer, label, "0"]`. */
  lemma AddKeyFields(store: seq<string>, secret: string, otpType: string, issuer: string,
                     accountLabel: string)
    requires IsField(secret) && IsField(otpType) && IsField(issuer) && IsField(accountLabel)
    ensures AddKey(store, secret, otpType, issuer, accountLabel).Ok?
    ensures var s := AddKey(store, secret, otpType, issuer, accountLabel).value;
            Fields(s[|store|]) == [NextId(store), secret, otpType, issuer, accountLabel, "0"]
  {
    assert IsField("0");
    RecordLineFields(NextId(store), secret, otpType, issuer, accountLabel, "0");
  }

  /** `add_key` keeps the keystore well formed: every line survives the next
      save and load unchanged. */
  lemma AddKeyPreservesWellFormed(store: seq<string>, secret: string, otpType: string,
                                  issuer: string, accountLabel: string)
    requires WellFormedStore(store)
    requires IsField(secret) && IsField(otpType) && IsField(issuer) && IsField(accountLabel)
    ensures AddKey(store, secret, otpType, issuer, accountLabel).Ok?
    ensures WellFormedStore(AddKey(store, secret, otpType, issuer, accountLabel).value)
  {
    var line := RecordLine(NextId(store), secret, otpType, issuer, accountLabel, "0");
    assert IsField("0");
    RecordLineFields(NextId(store), secret, otpType, issuer, accountLabel, "0");
    WellFormedAppend(store, line);
    AddKeyAppends(store, secret, otpType, issuer, accountLabel);
  }

  /** On success `add_key` appends exactly the new record line. */
  lemma AddKeyAppends(store: seq<string>, secret: string, otpType: string,
                      issuer: string, accountLabel: string)
    requires AddKey(store, secret, otpType, issuer, accountLabel).Ok?
    ensures AddKey(store, secret, otpType, issuer, accountLabel).value
         == store + [RecordLine(NextId(store), secret, otpType, issuer, accountLabel, "0")]
  {
  }

  /** `add_key` keeps the keystore reloadable (every record survives the next
      save and load), whatever spaces its values hold, as long as none holds a
      line boundary. */
  lemma AddKeyPreservesReloadable(store: seq<string>, secret: string, otpType: string,
                                  issuer: string, accountLabel: string)
    requires ReloadableStore(store)
    requires secret != [] && otpType != [] && accountLabel != []
    requires NoBreaks(secret) && NoBreaks(otpType) && NoBreaks(issuer) && NoBreaks(accountLabel)
    ensures AddKey(store, secret, otpType, issuer, accountLabel).Ok?
    ensures ReloadableStore(AddKey(store, secret, otpType, issuer, accountLabel).value)
  {
    var line := RecordLine(NextId(store), secret, otpType, issuer, accountLabel, "0");
    assert IsField("0");
    RecordLineWellFormed(NextId(store), secret, otpType, issuer, accountLabel, "0");
    ReloadableAppend(store, line);
    AddKeyAppends(store, secret, otpType, issuer, accountLabel);
  }

  /** With an empty issuer the record line holds two spaces in a row, and
      `split()` reads only five words: the label lands in the issuer column,
      `"0"` in the label column, and the counter column is gone. */
  lemma EmptyIssuerShiftsColumns(store: seq<string>, secret: string, otpType: string,
                                 accountLabel: string)
    requires IsField(secret) && IsField(otpType) && IsField(accountLabel)
    ensures AddKey(store, secret, otpType, "", accountLabel).Ok?
    ensures Fields(AddKey(store, secret, otpType, "", accountLabel).value[|store|])
         == [NextId(store), secret, otpType, accountLabel, "0"]
  {
    var id := NextId(store);
    assert IsField("0");
    SplitSkipsEmptyFourth(id, secret, otpType, accountLabel, "0");
    StripJoinSp([id, secret, otpType, "", accountLabel, "0"]);
  }

  /** Splitting six joined values of which the fourth is empty gives the other
      five. */
  lemma SplitSkipsEmptyFourth(a: string, b: string, c: string, e: string, f: string)
    requires IsField(a) && IsField(b) && IsField(c) && IsField(e) && IsField(f)
    ensures SplitWs(JoinSp([a, b, c, "", e, f])) == [a, b, c, e, f]
  {
    var v5 := [e, f];
    var v4 := [""] + v5;
    var v3 := [c] + v4;
    var v2 := [b] + v3;
    SplitJoinSp(v5);
    SplitJoinSpEmptyHead(v5);
    SplitJoinSpHead(c, v4);
    SplitJoinSpHead(b, v3);
    SplitJoinSpHead(a, v2);
    NestSix(a, b, c, e, f);
  }

  lemma NestSix(a: string, b: string, c: string, e: string, f: string)
    ensures [a] + ([b] + ([c] + ([""] + [e, f]))) == [a, b, c, "", e, f]
    ensures [a] + ([b] + ([c] + [e, f])) == [a, b, c, e, f]
  {
  }

  /** The consequence for an HOTP record added with an empty issuer: the
      first `generate_token` for its id finds no counter and fails, every
      time. */
  lemma EmptyIssuerHotpUnusable(store: seq<string>, secret: string, accountLabel: string,
                                otp: OtpEngine)
    requires IsField(secret) && IsField(accountLabel)
    requires forall j | 0 <= j < |store| :: !IdMatches(store[j], NextId(store))
    ensures AddKey(store, secret, "hotp", "", accountLabel).Ok?
    ensures GenerateToken(AddKey(store, secret, "hotp", "", accountLabel).value, NextId(store), otp)
         == Err(MissingCounter)
  {
    var id := NextId(store);
    var line := RecordLine(id, secret, "hotp", "", accountLabel, "0");
    EmptyIssuerShiftsColumns(store, secret, "hotp", accountLabel);
    assert AddKey(store, secret, "hotp", "", accountLabel).value == store + [line];
    AppendedFirstMatch(store, line, id);
    GenerateCases(store + [line], id, otp, |store|);
  }

  /** A line appended after lines none of which carries `keyId` is the first
      match for `keyId` when it carries it. */
  lemma AppendedFirstMatch(store: seq<string>, line: string, keyId: string)
    requires forall j | 0 <= j < |store| :: !IdMatches(store[j], keyId)
    requires IdMatches(line, keyId)
    ensures FirstMatch(store + [line], keyId, |store|)
  {
    assert forall j | 0 <= j < |store| :: (store + [line])[j] == store[j];
  }

  /** `add_key` with the check it evidently needs: besides refusing an empty
      secret, type or label it refuses any value that is not one word (an
      empty issuer included), so that the record reads back exactly as
      written. Where it accepts, it writes what `add_key` writes. */
  function AddKeyChecked(store: seq<string>, secret: string, otpType: string, issuer: string,
                         accountLabel: string): (r: Result<seq<string>, AddError>)
    ensures r.Ok? <==> IsField(secret) && IsField(otpType) && IsField(issuer) && IsField(accountLabel)
    ensures r.Ok? ==> AddKey(store, secret, otpType, issuer, accountLabel) == r
    ensures r.Ok? ==> Fields(r.value[|store|]) == [NextId(store), secret, otpType, issuer, accountLabel, "0"]
    ensures r.Ok? && WellFormedStore(store) ==> WellFormedStore(r.value)
    ensures r.Ok? && ReloadableStore(store) ==> ReloadableStore(r.value)
  {
    if secret == [] || otpType == [] || accountLabel == [] then Err(IncompleteData)
    else if !(IsField(secret) && IsField(otpType) && IsField(issuer) && IsField(accountLabel)) then
      Err(NotAWord)
    else
      AddKeyFields(store, secret, otpType, issuer, accountLabel);
      assert ReloadableStore(store) ==> ReloadableStore(AddKey(store, secret, otpType, issuer, accountLabel).value) by {
        if ReloadableStore(store) {
          FieldNoBreaks(secret);
          FieldNoBreaks(otpType);
          FieldNoBreaks(issuer);
          FieldNoBreaks(accountLabel);
          AddKeyPreservesReloadable(store, secret, otpType, issuer, accountLabel);
        }
      }
      assert WellFormedStore(store) ==> WellFormedStore(AddKey(store, secret, otpType, issuer, accountLabel).value) by {
        if WellFormedStore(store) {
          AddKeyPreservesWellFormed(store, secret, otpType, issuer, accountLabel);
        }
      }
      AddKey(store, secret, otpType, issuer, accountLabel)
  }

  // ---------------------------------------------------------------------------
  // generate_token

  /** `pyotp`, kept opaque. `totpNow(secret)` is `pyotp.TOTP(secret).now()` (the
      clock folded in), `hotpAt(secret, counter)` is
      `pyotp.HOTP(secret).at(counter)`; `None` means the library raised (a secret
      that is not base32, a negative counter). */
  datatype OtpEngine = OtpEngine(
    totpNow: string -> Option<string>,
    hotpAt: (string, int) -> Option<string>)

  /** The ways `generate_token` returns `None`. */
  datatype GenError =
    | NotFound          // "Invalid ID. Key not found."
    | MissingFields     // "Malformed keystore entry. Missing required fields."
    | MissingCounter    // "Missing HOTP counter."
    | UnsupportedType   // "Unsupported OTP type."
    | GenerationFailed  // "OTP generation failed": int() or pyotp raised

  /** A code and the line it came from; for HOTP also the counter it was
      computed at and the records with that line's counter advanced. */
  datatype Generated =
    | TotpCode(code: string, index: nat)
    | HotpCode(code: string, index: nat, counter: int, store: seq<string>)

  /** Line `i` is the one `generate_token` takes for `keyId`: the first whose
      first word is `keyId`. */
  predicate FirstMatch(store: seq<string>, keyId: string, i: nat) {
    && i < |store|
    && IdMatches(store[i], keyId)
    && forall j | 0 <= j < i :: !IdMatches(store[j], keyId)
  }

  /** The index of the line `generate_token` takes for `keyId`, if any. */
  function FindId(store: seq<string>, keyId: string): (r: Option<nat>)
    ensures r.Some? ==> FirstMatch(store, keyId, r.value)
    ensures r.None? ==> forall j | 0 <= j < |store| :: !IdMatches(store[j], keyId)
  {
    if store == [] then None
    else if IdMatches(store[0], keyId) then Some(0)
    else
      match FindId(store[1..], keyId)
      case None =>
        NoMatchCons(store, keyId);
        None
      case Some(i) =>
        FirstMatchCons(store, keyId, i);
        Some(i + 1)
  }

  lemma FirstMatchCons(store: seq<string>, keyId: string, i: nat)
    requires |store| > 0 && !IdMatches(store[0], keyId)
    requires FirstMatch(store[1..], keyId, i)
    ensures FirstMatch(store, keyId, i + 1)
  {
    assert forall j | 0 <= j < i :: store[1..][j] == store[j + 1];
  }

  lemma NoMatchCons(store: seq<string>, keyId: string)
    requires |store| > 0 && !IdMatches(store[0], keyId)
    requires forall j | 0 <= j < |store| - 1 :: !IdMatches(store[1..][j], keyId)
    ensures forall j | 0 <= j < |store| :: !IdMatches(store[j], keyId)
  {
    forall j | 1 <= j < |store|
      ensures !IdMatches(store[j], keyId)
    {
      assert store[j] == store[1..][j - 1];
    }
  }

  /** The line `generate_token` writes back for an HOTP record used at
      `counter`: the words of the old line with the sixth replaced by
      `str(counter + 1)`, joined with single spaces. */
  function AdvancedLine(parts: seq<string>, counter: int): (line: string)
    requires AllFields(parts) && |parts| >= 6
    ensures Fields(line) == parts[5 := IntToString(counter + 1)]
    ensures WellFormedLine(line)
  {
    var next := parts[5 := IntToString(counter + 1)];
    FieldsOfJoinSp(next);
    JoinSp(next)
  }

  /** `h` records a correct use of line `h.index` of `store` as an HOTP
      record: the line is an HOTP record with a readable counter `c`, the code
      is the one computed at `c`, the new records differ from the old ones in
      that line only, and there only in the sixth word, which now reads
      `c + 1`. */
  predicate IsHotpUse(store: seq<string>, otp: OtpEngine, h: Generated)
    requires h.HotpCode?
  {
    && h.index < |store|
    && |h.store| == |store|
    && var parts := Fields(store[h.index]);
    && |parts| >= 6 && parts[2] == "hotp"
    && ParseInt(parts[5]) == Some(h.counter)
    && otp.hotpAt(parts[1], h.counter) == Some(h.code)
    && Fields(h.store[h.index]) == parts[5 := IntToString(h.counter + 1)]
    && ParseInt(Fields(h.store[h.index])[5]) == Some(h.counter + 1)
    && WellFormedLine(h.store[h.index])
    && forall j | 0 <= j < |store| && j != h.index :: h.store[j] == store[j]
  }

  /** The HOTP branch of `generate_token` for line `i`: `int()` reads the
      counter, pyotp computes the code at it, and only then is the counter
      advanced. If either step raises, nothing changes. */
  function UseHotp(store: seq<string>, i: nat, otp: OtpEngine): (r: Result<Generated, GenError>)
    requires i < |store|
    requires var parts := Fields(store[i]); |parts| >= 6 && parts[2] == "hotp"
    ensures r.Ok? ==> r.value.HotpCode? && r.value.index == i && IsHotpUse(store, otp, r.value)
    ensures r.Err? ==> r.error == GenerationFailed
  {
    var parts := Fields(store[i]);
    match ParseInt(parts[5])
    case None => Err(GenerationFailed)
    case Some(c) =>
      match otp.hotpAt(parts[1], c)
      case None => Err(GenerationFailed)
      case Some(code) =>
        ParseIntToString(c + 1);
        Ok(HotpCode(code, i, c, store[i := AdvancedLine(parts, c)]))
  }

  /** `generate_token`: finds the first line for `keyId` and computes its code.
      A TOTP record is left as it is. An HOTP record's code is computed at the
      stored counter, and that line alone has its counter advanced by one. On
      every error path there is no new store at all. */
  function GenerateToken(store: seq<string>, keyId: string, otp: OtpEngine): (r: Result<Generated, GenError>)
    ensures r == Err(NotFound) <==> forall j | 0 <= j < |store| :: !IdMatches(store[j], keyId)
    ensures r.Ok? && r.value.HotpCode? ==>
              FirstMatch(store, keyId, r.value.index) && IsHotpUse(store, otp, r.value)
    ensures r.Ok? && r.value.TotpCode? ==>
              && FirstMatch(store, keyId, r.value.index)
              && var parts := Fields(store[r.value.index]);
              && |parts| >= 5 && parts[2] == "totp"
              && otp.totpNow(parts[1]) == Some(r.value.code)
  {
    match FindId(store, keyId)
    case None => Err(NotFound)
    case Some(i) =>
      var parts := Fields(store[i]);
      if |parts| < 5 then Err(MissingFields)
      else if parts[2] == "totp" then
        match otp.totpNow(parts[1])
        case None => Err(GenerationFailed)
        case Some(code) => Ok(TotpCode(code, i))
      else if parts[2] == "hotp" then
        if |parts| < 6 then Err(MissingCounter)
        else UseHotp(store, i, otp)
      else Err(UnsupportedType)
  }

  /** The records after `generate_token`: the advanced ones for an HOTP code,
      the unchanged ones otherwise. */
  function StoreAfter(store: seq<string>, r: Result<Generated, GenError>): seq<string> {
    if r.Ok? && r.value.HotpCode? then r.value.store else store
  }

  /** `generate_token` keeps the keystore well formed. */
  lemma GeneratePreservesWellFormed(store: seq<string>, keyId: string, otp: OtpEngine)
    requires WellFormedStore(store)
    ensures WellFormedStore(StoreAfter(store, GenerateToken(store, keyId, otp)))
  {
    var r := GenerateToken(store, keyId, otp);
    if r.Ok? && r.value.HotpCode? {
      var h := r.value;
      forall j | 0 <= j < |h.store|
        ensures WellFormedLine(h.store[j])
      {
        if j != h.index {
          assert h.store[j] == store[j];
        }
      }
    }
  }

  /** `generate_token` keeps the keystore reloadable. */
  lemma GeneratePreservesReloadable(store: seq<string>, keyId: string, otp: OtpEngine)
    requires ReloadableStore(store)
    ensures ReloadableStore(StoreAfter(store, GenerateToken(store, keyId, otp)))
  {
    var r := GenerateToken(store, keyId, otp);
    if r.Ok? && r.value.HotpCode? {
      var h := r.value;
      ReloadableUpdate(store, h.index, h.store[h.index]);
      assert h.store == store[h.index := h.store[h.index]];
    }
  }

  /** `FindId` finds the first matching line, whichever it is. */
  lemma {:induction false} FindIdOfFirstMatch(store: seq<string>, keyId: string, i: nat)
    requires FirstMatch(store, keyId, i)
    ensures FindId(store, keyId) == Some(i)
  {
    if i > 0 {
      assert !IdMatches(store[0], keyId);
      assert FirstMatch(store[1..], keyId, i - 1) by {
        assert forall j | 0 <= j < i - 1 :: store[1..][j] == store[j + 1];
      }
      FindIdOfFirstMatch(store[1..], keyId, i - 1);
    }
  }

  /** The converse of `GenerateToken`'s HOTP contract: when the first line for
      `keyId` is an HOTP record whose counter `int()` reads as `c`, and pyotp
      accepts the secret at `c`, generation succeeds with the code at `c`. */
  lemma GenerateHotpAt(store: seq<string>, keyId: string, otp: OtpEngine, i: nat, c: int)
    requires FirstMatch(store, keyId, i)
    requires var parts := Fields(store[i]);
             |parts| >= 6 && parts[2] == "hotp" && ParseInt(parts[5]) == Some(c)
             && otp.hotpAt(parts[1], c).Some?
    ensures var r := GenerateToken(store, keyId, otp);
            && r.Ok? && r.value.HotpCode? && r.value.index == i && r.value.counter == c
            && r.value.code == otp.hotpAt(Fields(store[i])[1], c).value
  {
    FindIdOfFirstMatch(store, keyId, i);
  }

  /** `generate_token`'s outcome once the first matching line is known, case
      by case in the order the source tests them: too few words, a TOTP
      record, an HOTP record without a counter, an unreadable counter, a type
      that is neither. */
  lemma GenerateCases(store: seq<string>, keyId: string, otp: OtpEngine, i: nat)
    requires FirstMatch(store, keyId, i)
    ensures var parts := Fields(store[i]);
            var r := GenerateToken(store, keyId, otp);
            && (|parts| < 5 ==> r == Err(MissingFields))
            && (|parts| >= 5 && parts[2] == "totp" ==>
                  r == if otp.totpNow(parts[1]).Some? then Ok(TotpCode(otp.totpNow(parts[1]).value, i))
                       else Err(GenerationFailed))
            && (|parts| == 5 && parts[2] == "hotp" ==> r == Err(MissingCounter))
            && (|parts| >= 6 && parts[2] == "hotp" && ParseInt(parts[5]).None? ==> r == Err(GenerationFailed))
            && (|parts| >= 5 && parts[2] != "totp" && parts[2] != "hotp" ==> r == Err(UnsupportedType))
  {
    FindIdOfFirstMatch(store, keyId, i);
  }

  /** Using an HOTP record twice in a row: the second use finds the same line
      and computes its code at exactly the next counter. No counter value is
      used twice and none is skipped. */
  lemma HotpCounterAdvances(store: seq<string>, keyId: string, otp: OtpEngine)
    requires GenerateToken(store, keyId, otp).Ok?
    requires GenerateToken(store, keyId, otp).value.HotpCode?
    ensures var h := GenerateToken(store, keyId, otp).value;
            var again := GenerateToken(h.store, keyId, otp);
            otp.hotpAt(Fields(store[h.index])[1], h.counter + 1).Some? ==>
              again.Ok? && again.value.HotpCode?
              && again.value.index == h.index
              && again.value.counter == h.counter + 1
              && again.value.code == otp.hotpAt(Fields(store[h.index])[1], h.counter + 1).value
  {
    var h := GenerateToken(store, keyId, otp).value;
    var i := h.index;
    var parts := Fields(store[i]);
    var next := Fields(h.store[i]);
    assert next[0] == parts[0] && next[1] == parts[1] && next[2] == parts[2];
    forall j | 0 <= j < i
      ensures !IdMatches(h.store[j], keyId)
    {
      assert h.store[j] == store[j];
    }
    if otp.hotpAt(parts[1], h.counter + 1).Some? {
      GenerateHotpAt(h.store, keyId, otp, i, h.counter + 1);
    }
  }

  /** The first line for `keyId` is line `i`, an HOTP record whose counter
      `int()` reads as `c`. */
  predicate HotpReady(store: seq<string>, keyId: string, i: nat, c: int) {
    && FirstMatch(store, keyId, i)
    && var parts := Fields(store[i]);
    && |parts| >= 6 && parts[2] == "hotp" && ParseInt(parts[5]) == Some(c)
  }

  /** One run of `generate_token` on a ready HOTP record shows the code at
      `c` and leaves the same record ready at `c + 1`, with the same secret.
      Readiness is thus an invariant of runs that advances the counter by
      one each time: the runs use `c`, `c + 1`, `c + 2`, ... in order, none
      twice and none skipped, for as long as pyotp accepts the secret. */
  lemma HotpStep(store: seq<string>, keyId: string, otp: OtpEngine, i: nat, c: int)
    requires HotpReady(store, keyId, i, c)
    requires otp.hotpAt(Fields(store[i])[1], c).Some?
    ensures var r := GenerateToken(store, keyId, otp);
            && r.Ok? && r.value.HotpCode? && r.value.index == i && r.value.counter == c
            && r.value.code == otp.hotpAt(Fields(store[i])[1], c).value
            && HotpReady(r.value.store, keyId, i, c + 1)
            && Fields(r.value.store[i])[1] == Fields(store[i])[1]
  {
    GenerateHotpAt(store, keyId, otp, i, c);
    var h := GenerateToken(store, keyId, otp).value;
    var parts := Fields(store[i]);
    var next := Fields(h.store[i]);
    assert next[0] == parts[0] && next[1] == parts[1] && next[2] == parts[2];
    forall j | 0 <= j < i
      ensures !IdMatches(h.store[j], keyId)
    {
      assert h.store[j] == store[j];
    }
  }

  // ---------------------------------------------------------------------------
  // remove_key

  /** `[line for line in store if not line.startswith(prefix)]` */
  function Keep(store: seq<string>, prefix: string): (r: seq<string>)
    ensures |r| <= |store|
    ensures forall l :: l in r <==> l in store && !StartsWith(l, prefix)
    ensures |r| == |store| <==> forall i | 0 <= i < |store| :: !StartsWith(store[i], prefix)
  {
    if store == [] then []
    else if StartsWith(store[0], prefix) then Keep(store[1..], prefix)
    else [store[0]] + Keep(store[1..], prefix)
  }

  /** Filtering commutes with concatenation: the surviving lines keep their
      relative order. */
  lemma {:induction false} KeepAppend(a: seq<string>, b: seq<string>, prefix: string)
    ensures Keep(a + b, prefix) == Keep(a, prefix) + Keep(b, prefix)
  {
    if a == [] {
      assert a + b == b;
    } else {
      assert (a + b)[0] == a[0];
      assert (a + b)[1..] == a[1..] + b;
      KeepAppend(a[1..], b, prefix);
    }
  }

  datatype Removal = NothingRemoved | Removed(store: seq<string>)

  /** `remove_key`: drops every line starting with `"{key_id} "` (all of them,
      not only the first). When none does, the keystore is left alone and not
      rewritten ("ID not found. Nothing removed."). */
  function RemoveKey(store: seq<string>, keyId: string): (r: Removal)
    ensures r.NothingRemoved? <==> forall i | 0 <= i < |store| :: !StartsWith(store[i], keyId + " ")
    ensures r.Removed? ==> |r.store| < |store|
    ensures r.Removed? ==> forall i | 0 <= i < |r.store| :: !StartsWith(r.store[i], keyId + " ")
    ensures r.Removed? ==> forall l :: l in r.store <==> l in store && !StartsWith(l, keyId + " ")
    ensures r.Removed? ==> r.store == Keep(store, keyId + " ")
  {
    var kept := Keep(store, keyId + " ");
    if |kept| == |store| then NothingRemoved else Removed(kept)
  }

  /** `remove_key` keeps the keystore well formed. */
  lemma RemovePreservesWellFormed(store: seq<string>, keyId: string)
    requires WellFormedStore(store)
    ensures RemoveKey(store, keyId).Removed? ==> WellFormedStore(RemoveKey(store, keyId).store)
  {
    var r := RemoveKey(store, keyId);
    if r.Removed? {
      forall i | 0 <= i < |r.store|
        ensures WellFormedLine(r.store[i])
      {
        assert r.store[i] in r.store;
      }
    }
  }

  /** Every line `remove_key` drops is one `generate_token` would take for the
      same id (when the id is a proper word). The converse fails for lines whose
      id is followed by a tab or preceded by whitespace. */
  lemma RemovedLineMatchesId(line: string, keyId: string)
    requires IsField(keyId)
    requires StartsWith(line, keyId + " ")
    ensures IdMatches(line, keyId)
  {
    var k := |keyId|;
    assert line[..k + 1] == keyId + " ";
    assert forall j | 0 <= j < k :: line[j] == keyId[j];
    assert line[k] == ' ';
    LStripNonWs(line);
    RStripDrops(line);
    var r := RStrip(line);
    assert Strip(line) == r;
    assert !IsWs(line[k - 1]);
    assert |r| >= k;
    var rest := r[k..];
    assert r == keyId + rest;
    assert rest == [] || rest[0] == ' ';
    SplitWsField(keyId, rest);
  }

  /** Ids repeat after a removal, because the next id counts lines. Suppose
      the last record carries id `len(store)`, as `add_key` numbered it, and
      `remove_key` drops exactly one other line. Then the record `add_key`
      writes next gets that same id, and the old record is still there. */
  lemma IdReusedAfterRemoval(store: seq<string>, keyId: string, secret: string, otpType: string,
                             issuer: string, accountLabel: string)
    requires |store| > 0
    requires StartsWith(store[|store| - 1], NextId(store[..|store| - 1]) + " ")
    requires !StartsWith(store[|store| - 1], keyId + " ")
    requires RemoveKey(store, keyId).Removed? && |RemoveKey(store, keyId).store| == |store| - 1
    requires secret != [] && otpType != [] && accountLabel != []
    ensures var kept := RemoveKey(store, keyId).store;
            var added := AddKey(kept, secret, otpType, issuer, accountLabel);
            && added.Ok?
            && StartsWith(added.value[|kept|], NextId(store[..|store| - 1]) + " ")
            && store[|store| - 1] in added.value[..|kept|]
  {
    var kept := RemoveKey(store, keyId).store;
    assert store[|store| - 1] in store;
    assert NextId(kept) == NextId(store[..|store| - 1]);
  }
}

=== FILE: numbers.dfy ===
/** Python's conversions between integers and their decimal text, as the
    keystore uses them: `str(n)` to write ids and HOTP counters, and `int(s)` to
    read a stored counter back. */
module PyInt {
  import opened Wrappers
  import PyText

  predicate IsDigit(c: char) {
    '0' <= c <= '9'
  }

  function DigitChar(d: nat): (c: char)
    requires d < 10
    ensures IsDigit(c) && (c as int) - ('0' as int) == d
  {
    (('0' as int) + d) as char
  }

  function DigitValue(c: char): (d: nat)
    requires IsDigit(c)
    ensures d < 10 && DigitChar(d) == c
  {
    (c as int) - ('0' as int)
  }

  /** `str(n)` for a non-negative `n`: canonical decimal, no leading zero. */
  function NatToDecimal(n: nat): (s: string)
    ensures |s| > 0
    ensures forall i | 0 <= i < |s| :: IsDigit(s[i])
    ensures s[0] == '0' ==> n == 0
  {
    if n < 10 then [DigitChar(n)] else NatToDecimal(n / 10) + [DigitChar(n % 10)]
  }

  /** `str(i)` for any integer: a minus sign in front of the magnitude when
      negative. The result is always one word of a record line. */
  function IntToString(i: int): (s: string)
    ensures PyText.IsField(s)
    ensures (s[0] == '-') <==> i < 0
  {
    if i < 0 then "-" + NatToDecimal(-i) else NatToDecimal(i)
  }

  /** The digit part `int()` accepts: ASCII digits, with single underscores
      allowed between two digits (`"1_000"`). */
  predicate ValidDigits(s: string) {
    && |s| > 0
    && IsDigit(s[0])
    && IsDigit(s[|s| - 1])
    && (forall i | 0 <= i < |s| :: IsDigit(s[i]) || s[i] == '_')
    && (forall i | 0 <= i < |s| - 1 :: s[i] == '_' ==> s[i + 1] != '_')
  }

  /** The value of a run of digits, ignoring the underscores. */
  function DigitsValue(s: string): nat
    requires forall i | 0 <= i < |s| :: IsDigit(s[i]) || s[i] == '_'
  {
    if s == [] then 0
    else if s[|s| - 1] == '_' then DigitsValue(s[..|s| - 1])
    else DigitsValue(s[..|s| - 1]) * 10 + DigitValue(s[|s| - 1])
  }

  /** `int(s)` on a whitespace-free string: an optional sign, then digits.
      `None` stands for the `ValueError` Python raises on anything else. */
  function ParseInt(s: string): (r: Option<int>)
    ensures r.Some? ==> |s| > 0 && IsDigit(s[|s| - 1])
    ensures r.Some? && r.value < 0 ==> s[0] == '-'
    ensures ValidDigits(s) ==> r == Some(DigitsValue(s))
  {
    if |s| > 0 && (s[0] == '-' || s[0] == '+') then
      var body := s[1..];
      if ValidDigits(body) then
        var magnitude: int := DigitsValue(body);
        Some(if s[0] == '-' then -magnitude else magnitude)
      else None
    else if ValidDigits(s) then Some(DigitsValue(s))
    else None
  }

  /** Everything `int()` accepts after its first character is a digit or an
      underscore: no space, no second sign, no other letter. */
  lemma ParseIntAccepts(s: string)
    requires ParseInt(s).Some?
    ensures forall i | 1 <= i < |s| :: IsDigit(s[i]) || s[i] == '_'
  {
    if s[0] == '-' || s[0] == '+' {
      assert forall i | 1 <= i < |s| :: s[i] == s[1..][i - 1];
    }
  }

  lemma {:induction false} DigitsValueOfDecimal(n: nat)
    ensures DigitsValue(NatToDecimal(n)) == n
  {
    var s := NatToDecimal(n);
    if n >= 10 {
      var a := NatToDecimal(n / 10);
      assert s == a + [DigitChar(n % 10)];
      assert s[..|s| - 1] == a;
      DigitsValueOfDecimal(n / 10);
    }
  }

  /** Reading back what `str` wrote gives the same integer: a counter written as
      `str(c + 1)` is read by the next `int()` as exactly `c + 1`. */
  lemma ParseIntToString(i: int)
    ensures ParseInt(IntToString(i)) == Some(i)
  {
    var n: nat := if i < 0 then -i else i;
    var d := NatToDecimal(n);
    DigitsValueOfDecimal(n);
    assert ValidDigits(d);
    if i < 0 {
      assert IntToString(i)[1..] == d;
    }
  }
}

=== FILE: session.dfy ===
/** The commands of otpgen/otpgen.py that read the keystore file and may write
    it back, each as one whole run of the program: `decrypt_store`, the change
    to the records, then `encrypt_store`. A run is a function from the file's
    contents (`None` when there is no file) to its trace of observable events:
    the bytes written over the keystore file and the one-time code shown to the
    user. The password prompt, the salt, Fernet's randomness and the
    cryptography come in through `Env`. */
module Session {
  import opened Wrappers
  import opened Utf8
  import opened PyText
  import Envelope
  import Keystore
  import Transfer
  import opened PyInt

  /** What a run does that can be observed from outside. */
  datatype Event =
    | Wrote(file: Bytes)      // `encrypt_store` replaced the keystore file
    | Revealed(code: string)  // `success(f"OTP: {token}")` (and the clipboard)

  /** What a run draws from outside: the password typed at the prompt, the
      salt `os.urandom(16)` returns, Fernet's own randomness, and the
      cryptography. */
  datatype Env = Env(password: Bytes, salt: Bytes, nonce: Bytes, crypto: Envelope.Crypto)

  /** The salt has the length `os.urandom(16)` gives and Fernet decrypts what
      it encrypted. */
  ghost predicate Sound(env: Env) {
    |env.salt| == Envelope.SaltLength && Envelope.FernetRoundTrip(env.crypto)
  }

  /** The bytes `encrypt_store` writes for `store` in this run. */
  function Save(store: seq<string>, env: Env): Bytes {
    Envelope.Persist(store, env.password, env.salt, env.nonce, env.crypto)
  }

  /** The records a command works on after `decrypt_store`. */
  function Loaded(file: Option<Bytes>, env: Env): seq<string> {
    Envelope.Working(Envelope.Load(file, env.password, env.crypto))
  }

  /** A later run with the same password reads back exactly what a run
      wrote, whatever salt and randomness each of them drew, if and only if
      the records written form a reloadable store. Every store a run loads is
      one (`LoadedReloadable`). */
  lemma LoadedSave(store: seq<string>, env: Env, next: Env)
    requires Sound(env)
    requires next.password == env.password && next.crypto == env.crypto
    ensures Envelope.Load(Some(Save(store, env)), next.password, next.crypto) == Ok(store)
            <==> ReloadableStore(store)
    ensures Loaded(Some(Save(store, env)), next) == store <==> ReloadableStore(store)
  {
    Envelope.LoadPersist(store, env.password, env.salt, env.nonce, env.crypto);
    StoreTextRoundTripExact(store);
  }

  /** The records a run works on always form a reloadable store: the lines
      `decrypt_store` read, or the empty list after a failed read. */
  lemma LoadedReloadable(file: Option<Bytes>, env: Env)
    ensures ReloadableStore(Loaded(file, env))
  {
  }

  // ---------------------------------------------------------------------------
  // add_key (from a decoded QR code)

  /** `add_key` once the QR code has given its words: an incomplete code is
      refused before the keystore is read; otherwise the new record is
      appended to whatever `decrypt_store` left and the file is rewritten. */
  function AddCommand(file: Option<Bytes>, env: Env, secret: string, otpType: string,
                      issuer: string, accountLabel: string): (t: seq<Event>)
    ensures |t| <= 1 && forall k | 0 <= k < |t| :: t[k].Wrote?
    ensures t != [] <==> secret != [] && otpType != [] && accountLabel != []
  {
    Written(Keystore.AddKey(Loaded(file, env), secret, otpType, issuer, accountLabel), env)
  }

  /** The keystore file is rewritten with the new records exactly when the
      change succeeded. */
  function Written<E>(r: Result<seq<string>, E>, env: Env): (t: seq<Event>)
    ensures t != [] <==> r.Ok?
    ensures r.Ok? ==> t == [Wrote(Save(r.value, env))]
    ensures |t| <= 1 && forall k | 0 <= k < |t| :: t[k].Wrote?
  {
    if r.Err? then [] else [Wrote(Save(r.value, env))]
  }

  /** What an `add_key` run writes, read back with the same password: the
      records it loaded followed by the new one, numbered one past them. This
      holds whatever keystore was loaded and whatever spaces the values hold,
      as long as no value holds a line boundary. */
  lemma AddCommandRecords(file: Option<Bytes>, env: Env, secret: string, otpType: string,
                          issuer: string, accountLabel: string)
    requires Sound(env)
    requires secret != [] && otpType != [] && accountLabel != []
    requires NoBreaks(secret) && NoBreaks(otpType) && NoBreaks(issuer) && NoBreaks(accountLabel)
    ensures var t := AddCommand(file, env, secret, otpType, issuer, accountLabel);
            var before := Loaded(file, env);
            && |t| == 1
            && Loaded(Some(t[0].file), env) == before + [Keystore.RecordLine(
                 Keystore.NextId(before), secret, otpType, issuer, accountLabel, "0")]
  {
    var before := Loaded(file, env);
    LoadedReloadable(file, env);
    Keystore.AddKeyPreservesReloadable(before, secret, otpType, issuer, accountLabel);
    var after := Keystore.AddKey(before, secret, otpType, issuer, accountLabel).value;
    LoadedSave(after, env, env);
  }

  /** As written, a keystore that cannot be read (a mistyped password, a
      damaged file) counts as empty, and `add_key` then replaces it with a
      file holding the new record alone: every record the file held is lost,
      and the file now opens only with the password just typed. */
  lemma AddAfterFailedLoad(file: Option<Bytes>, env: Env, secret: string, otpType: string,
                           issuer: string, accountLabel: string)
    requires Sound(env)
    requires Envelope.Load(file, env.password, env.crypto).Err?
    requires secret != [] && otpType != [] && accountLabel != []
    requires NoBreaks(secret) && NoBreaks(otpType) && NoBreaks(issuer) && NoBreaks(accountLabel)
    ensures var t := AddCommand(file, env, secret, otpType, issuer, accountLabel);
            && |t| == 1
            && Envelope.Load(Some(t[0].file), env.password, env.crypto)
               == Ok([Keystore.RecordLine("1", secret, otpType, issuer, accountLabel, "0")])
  {
    AddCommandRecords(file, env, secret, otpType, issuer, accountLabel);
    var t := AddCommand(file, env, secret, otpType, issuer, accountLabel);
    assert Keystore.NextId([]) == "1";
    Keystore.AddKeyPreservesReloadable([], secret, otpType, issuer, accountLabel);
    LoadedSave([Keystore.RecordLine("1", secret, otpType, issuer, accountLabel, "0")], env, env);
  }

  /** A stand-in for Fernet that keeps the round trip and nothing else: the key
      is the password, and a token is the key, a zero byte, then the message.
      Decryption under any other key fails. */
  function ToyCrypto(): (c: Envelope.Crypto) {
    Envelope.Crypto(
      (password: Bytes, salt: Bytes) => password,
      (key: Bytes, m: Bytes, nonce: Bytes) => key + [0] + m,
      (key: Bytes, t: Bytes) =>
        if |t| > |key| && t[..|key| + 1] == key + [0] then Some(t[|key| + 1..]) else None)
  }

  lemma ToyRoundTrip()
    ensures Envelope.FernetRoundTrip(ToyCrypto())
  {
    var c := ToyCrypto();
    forall key: Bytes, m: Bytes, nonce: Bytes
      ensures c.decrypt(key, c.encrypt(key, m, nonce)) == Some(m)
    {
      var t := key + [0] + m;
      assert t[..|key| + 1] == key + [0];
      assert t[|key| + 1..] == m;
    }
  }

  /** Under `ToyCrypto`, a file sealed under one password does not open under
      a different password of the same length. */
  lemma ToyWrongPassword(written: Bytes, typed: Bytes, salt: Bytes, m: Bytes, nonce: Bytes)
    requires |salt| == Envelope.SaltLength && |written| == |typed| && written != typed
    ensures var c := ToyCrypto();
            Envelope.Load(Some(Envelope.Seal(salt, c.encrypt(c.deriveKey(written, salt), m, nonce))), typed, c)
            == Err(Envelope.BadToken)
  {
    var c := ToyCrypto();
    var token := written + [0] + m;
    Envelope.UnsealSeal(salt, token);
    assert token[..|typed| + 1] != typed + [0] by {
      assert token[..|typed| + 1] == written + [0];
      assert (written + [0])[..|written|] == written;
      assert (typed + [0])[..|typed|] == typed;
    }
  }

  /** The loss on a whole run: a keystore holding some records is written
      under password `[1]`, then `add_key` is run with `[2]` typed by mistake.
      The file left behind holds only the new record, and the owner's own
      password no longer opens it. */
  lemma MistypedPasswordLosesRecords(records: seq<string>, salt: Bytes, nonce: Bytes, secret: string,
                                     otpType: string, issuer: string, accountLabel: string)
    requires ReloadableStore(records) && |records| > 0
    requires |salt| == Envelope.SaltLength
    requires secret != [] && otpType != [] && accountLabel != []
    requires NoBreaks(secret) && NoBreaks(otpType) && NoBreaks(issuer) && NoBreaks(accountLabel)
    ensures var c := ToyCrypto();
            var file := Save(records, Env([1], salt, nonce, c));
            var t := AddCommand(Some(file), Env([2], salt, nonce, c), secret, otpType, issuer, accountLabel);
            && Envelope.Load(Some(file), [1], c) == Ok(records)
            && |t| == 1
            && Envelope.Load(Some(t[0].file), [2], c)
               == Ok([Keystore.RecordLine("1", secret, otpType, issuer, accountLabel, "0")])
            && Envelope.Load(Some(t[0].file), [1], c) == Err(Envelope.BadToken)
  {
    var c := ToyCrypto();
    ToyRoundTrip();
    var env1 := Env([1], salt, nonce, c);
    var env2 := Env([2], salt, nonce, c);
    LoadedSave(records, env1, env1);
    ToyWrongPassword([1], [2], salt, Envelope.Plaintext(records), nonce);
    var file := Save(records, env1);
    AddAfterFailedLoad(Some(file), env2, secret, otpType, issuer, accountLabel);
    var t := AddCommand(Some(file), env2, secret, otpType, issuer, accountLabel);
    var written := [Keystore.RecordLine("1", secret, otpType, issuer, accountLabel, "0")];
    assert t[0].file == Save(written, env2);
    ToyWrongPassword([2], [1], salt, Envelope.Plaintext(written), nonce);
  }

  /** The records a command may safely work on: those `decrypt_store` read, or
      none when there is no keystore file yet. `None` when a file exists but
      could not be read, in which case nothing may be written over it. */
  function Readable(file: Option<Bytes>, env: Env): (r: Option<seq<string>>)
    ensures r.None? <==> Envelope.Load(file, env.password, env.crypto).Err? && file.Some?
    ensures r.Some? ==> r.value == Loaded(file, env)
  {
    match Envelope.Load(file, env.password, env.crypto)
    case Ok(store) => Some(store)
    case Err(e) => if e == Envelope.Missing then Some([]) else None
  }

  /** `add_key` as it is evidently meant to work: it stops when the keystore
      file exists but cannot be read, instead of replacing it, and it refuses
      values that would not read back as one word each (`AddKeyChecked`). */
  function AddCommandSafe(file: Option<Bytes>, env: Env, secret: string, otpType: string,
                          issuer: string, accountLabel: string): (t: seq<Event>)
    ensures |t| <= 1 && forall k | 0 <= k < |t| :: t[k].Wrote?
    ensures t != [] <==> && Readable(file, env).Some?
                         && IsField(secret) && IsField(otpType) && IsField(issuer) && IsField(accountLabel)
  {
    var readable := Readable(file, env);
    if readable.None? then []
    else Written(Keystore.AddKeyChecked(readable.value, secret, otpType, issuer, accountLabel), env)
  }

  /** The corrected `add_key` never loses a record: either the file is left
      as it was, or what it writes reads back as every record the file held
      followed by the new one, whose words read back as given. */
  lemma AddCommandSafeKeepsRecords(file: Option<Bytes>, env: Env, secret: string, otpType: string,
                                   issuer: string, accountLabel: string)
    requires Sound(env)
    ensures var t := AddCommandSafe(file, env, secret, otpType, issuer, accountLabel);
            file.Some? && Envelope.Load(file, env.password, env.crypto).Err? ==> t == []
    ensures var t := AddCommandSafe(file, env, secret, otpType, issuer, accountLabel);
            var before := Loaded(file, env);
            t != [] ==>
              && |t| == 1
              && var after := Envelope.Load(Some(t[0].file), env.password, env.crypto);
              && after == Ok(before + [Keystore.RecordLine(Keystore.NextId(before), secret, otpType,
                                                           issuer, accountLabel, "0")])
              && Fields(after.value[|before|]) == [Keystore.NextId(before), secret, otpType, issuer, accountLabel, "0"]
  {
    var t := AddCommandSafe(file, env, secret, otpType, issuer, accountLabel);
    if t != [] {
      var before := Loaded(file, env);
      LoadedReloadable(file, env);
      var r := Keystore.AddKeyChecked(before, secret, otpType, issuer, accountLabel);
      assert r.Ok? && t == [Wrote(Save(r.value, env))];
      var after := r.value;
      assert ReloadableStore(after);
      LoadedSave(after, env, env);
      assert after == before + [Keystore.RecordLine(Keystore.NextId(before), secret, otpType,
                                                    issuer, accountLabel, "0")];
    }
  }

  // ---------------------------------------------------------------------------
  // generate_token

  /** `generate_token`: an HOTP code is shown only after the advanced counter
      has been written; a TOTP code is shown with nothing written; a failure
      shows and writes nothing. */
  function GenerateCommand(file: Option<Bytes>, env: Env, keyId: string, otp: Keystore.OtpEngine)
    : (t: seq<Event>)
    ensures var r := Keystore.GenerateToken(Loaded(file, env), keyId, otp);
            && (t == [] <==> r.Err?)
            && (r.Ok? ==> t[|t| - 1] == Revealed(r.value.code))
            && (|t| == 2 <==> r.Ok? && r.value.HotpCode?)
    ensures |t| <= 2
    ensures forall k | 0 <= k < |t| :: t[k].Revealed? <==> k == |t| - 1
    ensures Envelope.Load(file, env.password, env.crypto).Err? ==> t == []
  {
    var r := Keystore.GenerateToken(Loaded(file, env), keyId, otp);
    if r.Err? then [] else Reveal(r.value, env)
  }

  /** The events of a successful `generate_token`: for HOTP the advanced
      store is written, then the code is shown. */
  function Reveal(g: Keystore.Generated, env: Env): (t: seq<Event>)
    ensures |t| == if g.HotpCode? then 2 else 1
    ensures t[|t| - 1] == Revealed(g.code)
    ensures forall k | 0 <= k < |t| :: t[k].Revealed? <==> k == |t| - 1
    ensures g.HotpCode? ==> t[0] == Wrote(Save(g.store, env))
  {
    match g
    case TotpCode(code, _) => [Revealed(code)]
    case HotpCode(code, _, _, store) => [Wrote(Save(store, env)), Revealed(code)]
  }

  /** When an HOTP code is shown, the file on disk already holds the record
      with its counter advanced past the code's counter: a crash after the
      code is shown cannot make the same code come out again. */
  lemma HotpPersistedBeforeReveal(file: Option<Bytes>, env: Env, keyId: string, otp: Keystore.OtpEngine)
    requires Sound(env)
    requires |GenerateCommand(file, env, keyId, otp)| == 2
    ensures var t := GenerateCommand(file, env, keyId, otp);
            var h := Keystore.GenerateToken(Loaded(file, env), keyId, otp).value;
            && t[0].Wrote? && t[1] == Revealed(h.code)
            && Loaded(Some(t[0].file), env) == h.store
            && ParseInt(Fields(h.store[h.index])[5]) == Some(h.counter + 1)
  {
    var store := Loaded(file, env);
    LoadedReloadable(file, env);
    Keystore.GeneratePreservesReloadable(store, keyId, otp);
    LoadedSave(Keystore.GenerateToken(store, keyId, otp).value.store, env, env);
  }

  /** Two runs in a row for the same HOTP record: the second reads the file
      the first wrote and shows the code at exactly the next counter. */
  lemma NextRunUsesNextCounter(file: Option<Bytes>, env: Env, next: Env, keyId: string,
                               otp: Keystore.OtpEngine)
    requires Sound(env)
    requires next.password == env.password && next.crypto == env.crypto
    requires |GenerateCommand(file, env, keyId, otp)| == 2
    ensures var store := Loaded(file, env);
            var h := Keystore.GenerateToken(store, keyId, otp).value;
            var secret := Fields(store[h.index])[1];
            var t2 := GenerateCommand(Some(GenerateCommand(file, env, keyId, otp)[0].file), next, keyId, otp);
            otp.hotpAt(secret, h.counter + 1).Some? ==>
              |t2| == 2 && t2[1] == Revealed(otp.hotpAt(secret, h.counter + 1).value)
  {
    var store := Loaded(file, env);
    var h := Keystore.GenerateToken(store, keyId, otp).value;
    LoadedReloadable(file, env);
    Keystore.GeneratePreservesReloadable(store, keyId, otp);
    LoadedSave(h.store, env, next);
    Keystore.HotpCounterAdvances(store, keyId, otp);
  }

  // ---------------------------------------------------------------------------
  // remove_key

  /** `remove_key`: the file is rewritten only when some line was dropped. */
  function RemoveCommand(file: Option<Bytes>, env: Env, keyId: string): (t: seq<Event>)
    ensures |t| <= 1 && forall k | 0 <= k < |t| :: t[k].Wrote?
    ensures t == [] <==> forall i | 0 <= i < |Loaded(file, env)| :: !StartsWith(Loaded(file, env)[i], keyId + " ")
    ensures Envelope.Load(file, env.password, env.crypto).Err? ==> t == []
  {
    match Keystore.RemoveKey(Loaded(file, env), keyId)
    case NothingRemoved => []
    case Removed(store) => [Wrote(Save(store, env))]
  }

  /** What a `remove_key` run writes reads back as the surviving records in
      their old order exactly when the survivors form a reloadable store. They
      need not: once the last line is removed, a survivor ending with a space
      (an imported record with an empty counter) may become the last line,
      and the next load strips that space. A keystore of well-formed lines
      always reads back whole. */
  lemma RemoveCommandRecords(file: Option<Bytes>, env: Env, keyId: string)
    requires Sound(env)
    requires RemoveCommand(file, env, keyId) != []
    ensures Loaded(Some(RemoveCommand(file, env, keyId)[0].file), env)
            == Keystore.Keep(Loaded(file, env), keyId + " ")
            <==> ReloadableStore(Keystore.Keep(Loaded(file, env), keyId + " "))
    ensures WellFormedStore(Loaded(file, env)) ==>
              Loaded(Some(RemoveCommand(file, env, keyId)[0].file), env)
              == Keystore.Keep(Loaded(file, env), keyId + " ")
  {
    var kept := Keystore.RemoveKey(Loaded(file, env), keyId).store;
    LoadedSave(kept, env, env);
    if WellFormedStore(Loaded(file, env)) {
      Keystore.RemovePreservesWellFormed(Loaded(file, env), keyId);
      WellFormedStoreReloadable(kept);
    }
  }

  // ---------------------------------------------------------------------------
  // import_keys

  /** `import_keys` for items already parsed from the file: an item without
      one of the keys raises before anything is written; otherwise the store
      is rewritten, even for a format that is neither json nor csv. */
  function ImportCommand(file: Option<Bytes>, env: Env, fmt: string, items: seq<Transfer.Item>)
    : (t: seq<Event>)
    ensures |t| <= 1 && forall k | 0 <= k < |t| :: t[k].Wrote?
    ensures t == [] <==> (fmt == "json" || fmt == "csv")
                         && exists j | 0 <= j < |items| :: !Transfer.HasImportKeys(items[j])
  {
    Written(Transfer.ImportKeys(Loaded(file, env), fmt, items), env)
  }

  /** What an `import_keys` run writes reads back as the records it built
      (those it loaded followed by the imported ones) exactly when they form a
      reloadable store. For an unknown format the run writes back just the
      records it loaded, and those always read back. When the last item's
      counter is empty the built records are not reloadable
      (`Transfer.ImportEmptyCounterLast`), and the next load drops that line's
      trailing space. */
  lemma ImportCommandRecords(file: Option<Bytes>, env: Env, fmt: string, items: seq<Transfer.Item>)
    requires Sound(env)
    requires Transfer.ImportKeys(Loaded(file, env), fmt, items).Ok?
    ensures |ImportCommand(file, env, fmt, items)| == 1
    ensures var t := ImportCommand(file, env, fmt, items);
            Loaded(Some(t[0].file), env) == Transfer.ImportKeys(Loaded(file, env), fmt, items).value
            <==> ReloadableStore(Transfer.ImportKeys(Loaded(file, env), fmt, items).value)
    ensures fmt != "json" && fmt != "csv" ==>
              Loaded(Some(ImportCommand(file, env, fmt, items)[0].file), env) == Loaded(file, env)
  {
    LoadedReloadable(file, env);
    LoadedSave(Transfer.ImportKeys(Loaded(file, env), fmt, items).value, env, env);
  }

  /** `import_keys` with the same guard as `AddCommandSafe`: an existing
      keystore that cannot be read is never written over. */
  function ImportCommandSafe(file: Option<Bytes>, env: Env, fmt: string, items: seq<Transfer.Item>)
    : (t: seq<Event>)
    ensures file.Some? && Envelope.Load(file, env.password, env.crypto).Err? ==> t == []
    ensures t != [] ==> file.None? || Envelope.Load(file, env.password, env.crypto).Ok?
    ensures Readable(file, env).Some? ==> t == ImportCommand(file, env, fmt, items)
  {
    match Readable(file, env)
    case None => []
    case Some(_) => ImportCommand(file, env, fmt, items)
  }
}

=== FILE: text.dfy ===
/** The handful of Python `str` operations the keystore is built on, with the
    exact character classes Python 3 uses:
    - `s.strip()` and `s.split()` (no arguments) treat every character for which
      `str.isspace()` holds as whitespace, and `split()` splits on RUNS of it;
    - `s.splitlines()` breaks at `\n`, `\r`, `\r\n`, `\v`, `\f`, `\x1c`-`\x1e`,
      `\x85`, U+2028 and U+2029, drops the terminators, and yields no trailing
      empty line;
    - `sep.join(parts)` and `s.startswith(p)`.
    The keystore keeps one record per line (joined with `"\n"`) and one field per
    whitespace-separated word (written with `" "`); the lemmas at the end say when
    writing and reading back agree. */
module PyText {

  /** `c.isspace()` in Python 3: the characters of the Unicode categories Zs, Zl,
      Zp and the bidirectional classes WS, B, S. */
  predicate IsWs(c: char) {
    var n := c as int;
    || n == 0x20 || 0x09 <= n <= 0x0D || 0x1C <= n <= 0x1F
    || n == 0x85 || n == 0xA0 || n == 0x1680 || 0x2000 <= n <= 0x200A
    || n == 0x2028 || n == 0x2029 || n == 0x202F || n == 0x205F || n == 0x3000
  }

  /** A line boundary for `str.splitlines()`. Every one of them is also
      whitespace (see `LineBreakIsWs`). */
  predicate IsLineBreak(c: char) {
    var n := c as int;
    0x0A <= n <= 0x0D || 0x1C <= n <= 0x1E || n == 0x85 || n == 0x2028 || n == 0x2029
  }

  lemma LineBreakIsWs(c: char)
    ensures IsLineBreak(c) ==> IsWs(c)
  {
  }

  /** A word `str.split()` can produce: non-empty and free of whitespace. */
  predicate IsField(f: string) {
    |f| > 0 && forall i | 0 <= i < |f| :: !IsWs(f[i])
  }

  predicate AllFields(fs: seq<string>) {
    forall i | 0 <= i < |fs| :: IsField(fs[i])
  }

  predicate NoBreaks(s: string) {
    forall i | 0 <= i < |s| :: !IsLineBreak(s[i])
  }

  /** `s.startswith(p)` */
  predicate StartsWith(s: string, p: string) {
    |p| <= |s| && s[..|p|] == p
  }

  /** `s.endswith(p)` */
  predicate EndsWith(s: string, p: string) {
    |p| <= |s| && s[|s| - |p|..] == p
  }

  /** `s.lstrip()`: drops the leading whitespace and nothing else. */
  function LStrip(s: string): (r: string)
    ensures |r| <= |s|
    ensures r == [] || !IsWs(r[0])
    decreases |s|
  {
    if s != [] && IsWs(s[0]) then LStrip(s[1..]) else s
  }

  /** What `LStrip` removes is a prefix, and only whitespace. */
  lemma {:induction false} LStripDrops(s: string)
    ensures LStrip(s) == s[|s| - |LStrip(s)|..]
    ensures forall i | 0 <= i < |s| - |LStrip(s)| :: IsWs(s[i])
    decreases |s|
  {
    if s != [] && IsWs(s[0]) {
      LStripDrops(s[1..]);
    }
  }

  /** `s.rstrip()`: drops the trailing whitespace and nothing else. */
  function RStrip(s: string): (r: string)
    ensures |r| <= |s|
    ensures r == [] || !IsWs(r[|r| - 1])
    decreases |s|
  {
    if s != [] && IsWs(s[|s| - 1]) then RStrip(s[..|s| - 1]) else s
  }

  /** What `RStrip` removes is a suffix, and only whitespace. */
  lemma {:induction false} RStripDrops(s: string)
    ensures RStrip(s) == s[..|RStrip(s)|]
    ensures forall i | |RStrip(s)| <= i < |s| :: IsWs(s[i])
    decreases |s|
  {
    if s != [] && IsWs(s[|s| - 1]) {
      RStripDrops(s[..|s| - 1]);
    }
  }

  /** `s.strip()`: the longest infix of `s` that neither starts nor ends with
      whitespace, obtained by removing whitespace only. */
  function Strip(s: string): (r: string)
    ensures |r| <= |s|
    ensures r == [] || (!IsWs(r[0]) && !IsWs(r[|r| - 1]))
    ensures (s == [] || (!IsWs(s[0]) && !IsWs(s[|s| - 1]))) ==> r == s
  {
    LStripDrops(s);
    RStripDrops(LStrip(s));
    RStrip(LStrip(s))
  }

  /** What `Strip` removes is whitespace only: the result is the infix of `s`
      that starts after the leading whitespace run, and every character before
      or after it is whitespace. */
  lemma StripDrops(s: string)
    ensures var a := |s| - |LStrip(s)|;
      && a + |Strip(s)| <= |s|
      && Strip(s) == s[a..a + |Strip(s)|]
      && (forall i | 0 <= i < a :: IsWs(s[i]))
      && (forall i | a + |Strip(s)| <= i < |s| :: IsWs(s[i]))
  {
    LStripDrops(s);
    RStripDrops(LStrip(s));
  }

  /** Length of the leading run of non-whitespace characters. */
  function FieldEnd(s: string): (k: nat)
    ensures k <= |s|
    ensures forall j | 0 <= j < k :: !IsWs(s[j])
    ensures k < |s| ==> IsWs(s[k])
  {
    if s == [] || IsWs(s[0]) then 0 else 1 + FieldEnd(s[1..])
  }

  /** `s.split()` with no separator: the maximal runs of non-whitespace, in order. */
  function SplitWs(s: string): (fs: seq<string>)
    ensures AllFields(fs)
    decreases |s|
  {
    var t := LStrip(s);
    if t == [] then []
    else
      var k := FieldEnd(t);
      [t[..k]] + SplitWs(t[k..])
  }

  /** `split()` finds no word exactly when the text is all whitespace. */
  lemma SplitWsEmpty(s: string)
    ensures SplitWs(s) == [] <==> forall j | 0 <= j < |s| :: IsWs(s[j])
  {
    var t := LStrip(s);
    LStripDrops(s);
    assert t != [] ==> s[|s| - |t|] == t[0];
  }

  /** `sep.join(parts)` */
  function Join(parts: seq<string>, sep: string): (r: string)
    ensures |parts| > 0 ==> StartsWith(r, parts[0])
    ensures |parts| > 0 ==>
              (|parts[|parts| - 1]| <= |r| && r[|r| - |parts[|parts| - 1]|..] == parts[|parts| - 1])
  {
    if |parts| == 0 then ""
    else if |parts| == 1 then parts[0]
    else parts[0] + sep + Join(parts[1..], sep)
  }

  /** `" ".join(fields)`, the way a record line is written back: the first
      word, then a space before the next, ending with the last word. */
  function JoinSp(fs: seq<string>): (line: string)
    ensures fs == [] ==> line == []
    ensures |fs| > 0 ==> StartsWith(line, fs[0]) && EndsWith(line, fs[|fs| - 1])
  {
    Join(fs, " ")
  }

  /** `"\n".join(lines)`, the plaintext of the keystore: the first line, then
      a newline before the next, ending with the last line. */
  function JoinLines(ls: seq<string>): (text: string)
    ensures ls == [] ==> text == []
    ensures |ls| > 0 ==> StartsWith(text, ls[0]) && EndsWith(text, ls[|ls| - 1])
    ensures |ls| > 1 ==> |ls[0]| < |text| && text[|ls[0]|] == '\n'
  {
    Join(ls, "\n")
  }

  /** Index of the first line boundary, or `|s|` when there is none. */
  function BreakIndex(s: string): (k: nat)
    ensures k <= |s|
    ensures forall j | 0 <= j < k :: !IsLineBreak(s[j])
    ensures k < |s| ==> IsLineBreak(s[k])
  {
    if s == [] || IsLineBreak(s[0]) then 0 else 1 + BreakIndex(s[1..])
  }

  /** `s.splitlines()`: a `\r` directly followed by `\n` is one boundary. */
  function SplitLines(s: string): (ls: seq<string>)
    ensures forall i | 0 <= i < |ls| :: NoBreaks(ls[i])
    ensures ls == [] <==> s == []
    ensures |ls| > 0 ==> StartsWith(s, ls[0])
    ensures s != [] && NoBreaks(s) ==> ls == [s]
    decreases |s|
  {
    if s == [] then []
    else
      var k := BreakIndex(s);
      if k == |s| then [s]
      else
        [s[..k]] + SplitLines(s[k + BreakWidth(s, k)..])
  }

  /** The width of the boundary at `k`: two for `\r\n`, one otherwise. */
  function BreakWidth(s: string, k: nat): (w: nat)
    requires k < |s|
    ensures 1 <= w && k + w <= |s|
    ensures w == 2 ==> s[k + 1] == '\n'
  {
    if s[k] == '\r' && k + 1 < |s| && s[k + 1] == '\n' then 2 else 1
  }

  /** A keystore line that survives `"\n".join` followed by
      `strip().splitlines()`: non-empty, no line boundary inside, no whitespace
      at either end. */
  predicate WellFormedLine(l: string) {
    |l| > 0 && !IsWs(l[0]) && !IsWs(l[|l| - 1]) && NoBreaks(l)
  }

  predicate WellFormedStore(ls: seq<string>) {
    forall i | 0 <= i < |ls| :: WellFormedLine(ls[i])
  }

  /** A list of lines that `"\n".join` followed by `strip().splitlines()`
      gives back (`StoreTextRoundTripExact`): no line holds a boundary, the
      first line starts with a character that is not whitespace and the last
      line ends with one. The lines in between may be empty or carry spaces at
      either end, as a line `import_keys` writes with an empty counter does. */
  predicate ReloadableStore(ls: seq<string>) {
    && (forall i | 0 <= i < |ls| :: NoBreaks(ls[i]))
    && (|ls| > 0 ==> ls[0] != [] && !IsWs(ls[0][0]))
    && (|ls| > 0 ==> ls[|ls| - 1] != [] && !IsWs(ls[|ls| - 1][|ls[|ls| - 1]| - 1]))
  }

  lemma WellFormedStoreReloadable(ls: seq<string>)
    requires WellFormedStore(ls)
    ensures ReloadableStore(ls)
  {
    if |ls| > 0 {
      assert WellFormedLine(ls[0]) && WellFormedLine(ls[|ls| - 1]);
    }
  }

  /** A store whose last line ends with whitespace is not reloadable. */
  lemma TrailingWsNotReloadable(ls: seq<string>)
    requires |ls| > 0 && ls[|ls| - 1] != [] && IsWs(ls[|ls| - 1][|ls[|ls| - 1]| - 1])
    ensures !ReloadableStore(ls)
  {
  }

  /** Appending a well-formed line keeps a store well formed. */
  lemma WellFormedAppend(ls: seq<string>, l: string)
    requires WellFormedStore(ls) && WellFormedLine(l)
    ensures WellFormedStore(ls + [l])
  {
    var r := ls + [l];
    forall i | 0 <= i < |r|
      ensures WellFormedLine(r[i])
    {
      if i < |ls| {
        assert r[i] == ls[i];
      }
    }
  }

  /** Appending a well-formed line keeps a store reloadable. */
  lemma ReloadableAppend(ls: seq<string>, l: string)
    requires ReloadableStore(ls) && WellFormedLine(l)
    ensures ReloadableStore(ls + [l])
  {
    var r := ls + [l];
    assert r[|r| - 1] == l;
    assert |ls| > 0 ==> r[0] == ls[0];
    forall i | 0 <= i < |r|
      ensures NoBreaks(r[i])
    {
      if i < |ls| {
        assert r[i] == ls[i];
      }
    }
  }

  /** Replacing any one line by a well-formed line keeps a store reloadable. */
  lemma ReloadableUpdate(ls: seq<string>, i: nat, l: string)
    requires ReloadableStore(ls) && i < |ls| && WellFormedLine(l)
    ensures ReloadableStore(ls[i := l])
  {
  }

  // ---------------------------------------------------------------------------
  // Word splitting and joining

  lemma FieldEndOfField(f: string, rest: string)
    requires IsField(f)
    requires rest == [] || IsWs(rest[0])
    ensures FieldEnd(f + rest) == |f|
  {
    var s := f + rest;
    assert forall j | 0 <= j < |f| :: s[j] == f[j];
    assert |f| < |s| ==> s[|f|] == rest[0];
  }

  lemma LStripNonWs(s: string)
    requires s == [] || !IsWs(s[0])
    ensures LStrip(s) == s
  {
  }

  /** Splitting a line that was written with `" ".join` gives back the fields,
      provided each field is non-empty and free of whitespace: the property
      `generate_token` relies on when it rewrites a record. */
  lemma SplitWsField(f: string, rest: string)
    requires IsField(f)
    requires rest == [] || IsWs(rest[0])
    ensures SplitWs(f + rest) == [f] + SplitWs(rest)
  {
    var s := f + rest;
    LStripNonWs(s);
    FieldEndOfField(f, rest);
    assert s[..|f|] == f;
    assert s[|f|..] == rest;
  }

  lemma SplitWsSpace(t: string)
    ensures SplitWs(" " + t) == SplitWs(t)
  {
    assert (" " + t)[1..] == t;
    assert LStrip(" " + t) == LStrip(t);
  }

  /** `sep.join` of a longer list puts the separator after the first part. */
  lemma JoinCons(p: string, rest: seq<string>, sep: string)
    requires |rest| > 0
    ensures Join([p] + rest, sep) == p + (sep + Join(rest, sep))
  {
    assert ([p] + rest)[1..] == rest;
  }

  lemma JoinSpCons(f: string, rest: seq<string>)
    requires |rest| > 0
    ensures JoinSp([f] + rest) == f + (" " + JoinSp(rest))
  {
    JoinCons(f, rest, " ");
  }

  /** Splitting a joined line yields its first value as a word, whatever the
      other values are. */
  lemma SplitJoinSpHead(f: string, rest: seq<string>)
    requires IsField(f) && |rest| > 0
    ensures SplitWs(JoinSp([f] + rest)) == [f] + SplitWs(JoinSp(rest))
  {
    var tail := JoinSp(rest);
    JoinSpCons(f, rest);
    SplitWsField(f, " " + tail);
    SplitWsSpace(tail);
  }

  /** An empty value leaves only an extra space behind, which splitting
      ignores. */
  lemma SplitJoinSpEmptyHead(rest: seq<string>)
    requires |rest| > 0
    ensures SplitWs(JoinSp([""] + rest)) == SplitWs(JoinSp(rest))
  {
    JoinSpCons("", rest);
    assert "" + (" " + JoinSp(rest)) == " " + JoinSp(rest);
    SplitWsSpace(JoinSp(rest));
  }

  lemma SplitJoinSpCons(f: string, rest: seq<string>)
    requires IsField(f)
    requires |rest| > 0 && IsField(rest[0])
    requires SplitWs(JoinSp(rest)) == rest
    ensures SplitWs(JoinSp([f] + rest)) == [f] + rest
  {
    var tail := JoinSp(rest);
    JoinSpCons(f, rest);
    assert StartsWith(tail, rest[0]);
    SplitWsField(f, " " + tail);
    SplitWsSpace(tail);
  }

  /** Splitting a line that was written with `" ".join` gives back the fields,
      provided each field is non-empty and free of whitespace: the property
      `generate_token` relies on when it rewrites a record. */
  lemma {:induction false} SplitJoinSp(fs: seq<string>)
    requires AllFields(fs)
    ensures SplitWs(JoinSp(fs)) == fs
  {
    if |fs| == 0 {
      assert JoinSp(fs) == [];
      assert SplitWs([]) == [];
      assert SplitWs(JoinSp(fs)) == fs;
    } else if |fs| == 1 {
      SplitJoinSpOne(fs[0]);
      assert fs == [fs[0]];
      assert SplitWs(JoinSp(fs)) == fs;
    } else if |fs| > 1 {
      SplitJoinSp(fs[1..]);
      SplitJoinSpCons(fs[0], fs[1..]);
      assert [fs[0]] + fs[1..] == fs;
      assert SplitWs(JoinSp(fs)) == fs;
    }
  }

  lemma SplitJoinSpOne(f: string)
    requires IsField(f)
    ensures SplitWs(JoinSp([f])) == [f]
  {
    assert JoinSp([f]) == f + "";
    SplitWsField(f, "");
  }

  /** A line written with `" ".join` whose first and last values are proper
      words has nothing for `strip()` to remove. */
  lemma StripJoinSp(fs: seq<string>)
    requires |fs| > 0 && IsField(fs[0]) && IsField(fs[|fs| - 1])
    ensures Strip(JoinSp(fs)) == JoinSp(fs)
  {
    var r := JoinSp(fs);
    var last := fs[|fs| - 1];
    assert r[0] == fs[0][0];
    assert r[|r| - 1] == r[|r| - |last|..][|last| - 1] == last[|last| - 1];
  }

  /** A word holds no line boundary, every boundary being whitespace. */
  lemma FieldNoBreaks(f: string)
    requires IsField(f)
    ensures NoBreaks(f)
  {
    forall i | 0 <= i < |f|
      ensures !IsLineBreak(f[i])
    {
      LineBreakIsWs(f[i]);
    }
  }

  /** `sep.join` of parts without a line boundary, with a separator without
      one, has none either. */
  lemma {:induction false} JoinNoBreaks(parts: seq<string>, sep: string)
    requires NoBreaks(sep)
    requires forall i | 0 <= i < |parts| :: NoBreaks(parts[i])
    ensures NoBreaks(Join(parts, sep))
  {
    if |parts| > 1 {
      JoinNoBreaks(parts[1..], sep);
      var p := parts[0];
      var rest := Join(parts[1..], sep);
      var s := p + sep + rest;
      assert Join(parts, sep) == s;
      forall i | 0 <= i < |s|
        ensures !IsLineBreak(s[i])
      {
        if i < |p| {
          assert s[i] == p[i];
        } else if i < |p| + |sep| {
          assert s[i] == sep[i - |p|];
        } else {
          assert s[i] == rest[i - |p| - |sep|];
        }
      }
    }
  }

  /** `" ".join` of proper fields never contains a line boundary. */
  lemma {:induction false} JoinSpNoBreaks(fs: seq<string>)
    requires AllFields(fs)
    ensures NoBreaks(JoinSp(fs))
  {
    if |fs| > 1 {
      JoinSpNoBreaks(fs[1..]);
      var f := fs[0];
      var s := f + " " + JoinSp(fs[1..]);
      assert JoinSp(fs) == s;
      forall i | 0 <= i < |s|
        ensures !IsLineBreak(s[i])
      {
        if i < |f| {
          LineBreakIsWs(f[i]);
        } else if i > |f| {
          assert s[i] == JoinSp(fs[1..])[i - |f| - 1];
        }
      }
    } else if |fs| == 1 {
      forall i | 0 <= i < |fs[0]|
        ensures !IsLineBreak(fs[0][i])
      {
        LineBreakIsWs(fs[0][i]);
      }
    }
  }

  /** The fields of a line are the words `strip().split()` finds in it. */
  function Fields(line: string): (fs: seq<string>)
    ensures AllFields(fs)
  {
    SplitWs(Strip(line))
  }

  /** Writing proper fields with `" ".join` and reading the line back with
      `strip().split()` is the identity, and the line is a well-formed keystore
      line. */
  lemma FieldsOfJoinSp(fs: seq<string>)
    requires AllFields(fs)
    requires |fs| > 0
    ensures Fields(JoinSp(fs)) == fs
    ensures WellFormedLine(JoinSp(fs))
  {
    assert IsField(fs[0]) && IsField(fs[|fs| - 1]);
    StripJoinSp(fs);
    SplitJoinSp(fs);
    JoinSpNoBreaks(fs);
    var r := JoinSp(fs);
    var last := fs[|fs| - 1];
    assert IsField(fs[0]) && IsField(last);
    assert r[0] == fs[0][0];
    assert r[|r| - 1] == r[|r| - |last|..][|last| - 1] == last[|last| - 1];
  }

  // ---------------------------------------------------------------------------
  // Line splitting and joining

  lemma BreakIndexOfLine(l: string, rest: string)
    requires NoBreaks(l)
    requires rest == [] || IsLineBreak(rest[0])
    ensures BreakIndex(l + rest) == |l|
  {
    var s := l + rest;
    assert forall j | 0 <= j < |l| :: s[j] == l[j];
    assert |l| < |s| ==> s[|l|] == rest[0];
  }

  lemma JoinLinesCons(l: string, rest: seq<string>)
    requires |rest| > 0
    ensures JoinLines([l] + rest) == l + ("\n" + JoinLines(rest))
  {
    JoinCons(l, rest, "\n");
  }

  lemma SplitLinesCons(l: string, tail: string)
    requires NoBreaks(l)
    ensures SplitLines(l + ("\n" + tail)) == [l] + SplitLines(tail)
  {
    var s := l + ("\n" + tail);
    BreakIndexOfLine(l, "\n" + tail);
    assert s[|l|] == '\n';
    assert s[..|l|] == l;
    assert s[|l| + 1..] == tail;
  }

  /** `"\n".join` followed by `splitlines()` is the identity on lines without
      boundaries, as long as the last line is not empty (an empty last line
      leaves only a trailing `"\n"`, which `splitlines()` ignores). */
  lemma {:induction false} SplitJoinLines(ls: seq<string>)
    requires forall i | 0 <= i < |ls| :: NoBreaks(ls[i])
    requires |ls| > 0 ==> ls[|ls| - 1] != []
    ensures SplitLines(JoinLines(ls)) == ls
  {
    if |ls| == 0 {
      assert JoinLines(ls) == [];
    } else if |ls| == 1 {
      SplitJoinLinesOne(ls[0]);
      assert ls == [ls[0]];
    } else if |ls| > 1 {
      SplitJoinLines(ls[1..]);
      JoinLinesCons(ls[0], ls[1..]);
      SplitLinesCons(ls[0], JoinLines(ls[1..]));
      assert ls == [ls[0]] + ls[1..];
    }
  }

  lemma SplitJoinLinesOne(l: string)
    requires NoBreaks(l) && l != []
    ensures SplitLines(JoinLines([l])) == [l]
  {
    assert JoinLines([l]) == l;
  }

  /** The last of `ls` is a non-empty line ending in `c`. */
  predicate LastLineEndsWith(ls: seq<string>, c: char) {
    |ls| > 0 && ls[|ls| - 1] != [] && ls[|ls| - 1][|ls[|ls| - 1]| - 1] == c
  }

  /** The last line `splitlines()` yields ends with the text's last
      character, when that character is not a line boundary. */
  lemma {:induction false} SplitLinesLast(s: string)
    requires s != [] && !IsLineBreak(s[|s| - 1])
    ensures LastLineEndsWith(SplitLines(s), s[|s| - 1])
    decreases |s|
  {
    var more, tail := SplitLinesStep(s);
    if more {
      SplitLinesLast(tail);
      LastLineOfDrop(SplitLines(s), SplitLines(tail), s[|s| - 1]);
    }
  }

  /** Dropping the first of several lines keeps the last one. */
  lemma LastLineOfDrop(a: seq<string>, b: seq<string>, c: char)
    requires |a| > 1 && a[1..] == b && LastLineEndsWith(b, c)
    ensures LastLineEndsWith(a, c)
  {
    assert a[|a| - 1] == b[|b| - 1];
  }

  /** One step of `splitlines()` on text that does not end in a boundary:
      either the text is one line, or the first line is followed by a
      boundary (one character wide, or two for `\r\n`) and the lines of a
      shorter `tail` that ends like the text. */
  lemma SplitLinesStep(s: string) returns (more: bool, tail: string)
    requires s != [] && !IsLineBreak(s[|s| - 1])
    ensures !more ==> SplitLines(s) == [s]
    ensures more ==> |tail| < |s| && tail != [] && tail[|tail| - 1] == s[|s| - 1]
    ensures more ==> |SplitLines(s)| > 1 && SplitLines(s)[1..] == SplitLines(tail)
  {
    var k := BreakIndex(s);
    more := k < |s|;
    if more {
      var width := BreakWidth(s, k);
      assert k + width < |s| by {
        assert IsLineBreak(s[k + width - 1]);
      }
      tail := s[k + width..];
      assert tail[|tail| - 1] == s[|s| - 1];
      SplitLinesDrop(s[..k], SplitLines(tail));
    } else {
      tail := s;
    }
  }

  /** The lines after the first one. */
  lemma SplitLinesDrop(l: string, rest: seq<string>)
    ensures ([l] + rest)[1..] == rest
  {
  }

  /** Whatever text `strip().splitlines()` reads, the lines it yields form a
      reloadable store: every keystore `decrypt_store` loads is one. */
  lemma StrippedLinesReloadable(text: string)
    ensures ReloadableStore(SplitLines(Strip(text)))
  {
    var s := Strip(text);
    if s != [] {
      LineBreakIsWs(s[0]);
      LineBreakIsWs(s[|s| - 1]);
      SplitLinesLast(s);
      var k := BreakIndex(s);
      assert k > 0;
      assert SplitLines(s)[0] == s[..k];
      assert SplitLines(s)[0][0] == s[0];
    }
  }

  /** The keystore plaintext round trip: `"\n".join(store)` read back with
      `strip().splitlines()` is `store` for every reloadable store, the empty
      store included. */
  lemma StoreTextRoundTrip(ls: seq<string>)
    requires ReloadableStore(ls)
    ensures SplitLines(Strip(JoinLines(ls))) == ls
  {
    var s := JoinLines(ls);
    if |ls| > 0 {
      var first := ls[0];
      var last := ls[|ls| - 1];
      assert s[0] == first[0];
      assert s[|s| - 1] == s[|s| - |last|..][|last| - 1] == last[|last| - 1];
    }
    assert Strip(s) == s;
    SplitJoinLines(ls);
  }

  /** The round trip holds for exactly the reloadable stores: any other store
      comes back different, since what `strip().splitlines()` yields is always
      reloadable. */
  lemma StoreTextRoundTripExact(ls: seq<string>)
    ensures SplitLines(Strip(JoinLines(ls))) == ls <==> ReloadableStore(ls)
  {
    if ReloadableStore(ls) {
      StoreTextRoundTrip(ls);
    }
    StrippedLinesReloadable(JoinLines(ls));
  }
}

=== FILE: transfer.dfy ===
/** `export_keys` and `import_keys` of otpgen/otpgen.py. Export turns every
    record into a JSON object or a CSV row; import turns objects (or
    `csv.DictReader` rows) back into record lines with fresh ids.

    The JSON and CSV text itself is not modelled: an export produces the list
    `json.dump` or `csv.writer` would write, and an import consumes the objects
    `json.load` or `csv.DictReader` produced, each value already in the form
    the import f-string prints it. Only the six keys the program reads and
    writes are represented; an import ignores every other key. */
module Transfer {
  import opened Wrappers
  import opened PyText
  import opened PyInt
  import Keystore

  /** The six keys of an exported record. */
  datatype Key = Id | Secret | Type | Issuer | Label | Counter

  function KeyName(k: Key): string {
    match k
    case Id => "id"
    case Secret => "secret"
    case Type => "type"
    case Issuer => "issuer"
    case Label => "label"
    case Counter => "counter"
  }

  /** The key a JSON member name or CSV column name stands for, if any. */
  function KeyOf(name: string): (k: Option<Key>)
    ensures k.Some? ==> KeyName(k.value) == name
  {
    if name == "id" then Some(Id)
    else if name == "secret" then Some(Secret)
    else if name == "type" then Some(Type)
    else if name == "issuer" then Some(Issuer)
    else if name == "label" then Some(Label)
    else if name == "counter" then Some(Counter)
    else None
  }

  /** A JSON object, or a `csv.DictReader` row, restricted to the six keys. */
  type Item = map<Key, string>

  /** The header row of a CSV export. */
  const Header: seq<string> := ["id", "secret", "type", "issuer", "label", "counter"]

  // ---------------------------------------------------------------------------
  // export_keys

  /** The JSON object for one record: the first five words by position, and
      the sixth as the counter, or `""` when the line has none. Words past
      the sixth are dropped. */
  function JsonEntry(parts: seq<string>): (e: Item)
    requires |parts| >= 5
    ensures e.Keys == {Id, Secret, Type, Issuer, Label, Counter}
    ensures e[Id] == parts[0] && e[Secret] == parts[1] && e[Type] == parts[2]
    ensures e[Issuer] == parts[3] && e[Label] == parts[4]
    ensures e[Counter] == if |parts| > 5 then parts[5] else ""
  {
    map[Id := parts[0], Secret := parts[1], Type := parts[2], Issuer := parts[3],
        Label := parts[4], Counter := if |parts| > 5 then parts[5] else ""]
  }

  /** The CSV row for one record: its words, padded with empty cells to six.
      A line with more than six words gives a longer row. */
  function CsvRow(parts: seq<string>): (row: seq<string>)
    ensures |row| == if |parts| < 6 then 6 else |parts|
    ensures row[..|parts|] == parts
    ensures forall k | |parts| <= k < |row| :: row[k] == ""
  {
    if |parts| < 6 then parts + seq(6 - |parts|, _ => "") else parts
  }

  /** Why `export_keys` wrote nothing. */
  datatype ExportError =
    | NoData                 // the keystore is empty: "No data to export."
    | ShortLine(index: nat)  // `parts[k]` raised IndexError on this line
    | UnsupportedFormat      // "Unsupported export format."

  /** What `export_keys` writes: the list `json.dump` writes, or the rows
      (header first) `csv.writer` writes. */
  datatype Exported = Json(entries: seq<Item>) | Csv(rows: seq<seq<string>>)

  predicate HasFiveFields(line: string) {
    |Fields(line)| >= 5
  }

  /** The JSON entry of one line with at least five words. */
  function LineEntry(line: string): Item
    requires HasFiveFields(line)
  {
    JsonEntry(Fields(line))
  }

  /** The first line with fewer than five words, if any. */
  function FirstShort(store: seq<string>): (r: Option<nat>)
    ensures r.None? <==> forall j | 0 <= j < |store| :: HasFiveFields(store[j])
    ensures r.Some? ==> r.value < |store| && !HasFiveFields(store[r.value])
    ensures r.Some? ==> forall j | 0 <= j < r.value :: HasFiveFields(store[j])
  {
    if store == [] then None
    else if !HasFiveFields(store[0]) then Some(0)
    else
      var r := FirstShort(store[1..]);
      ShiftBack(store, r);
      match r
      case None => None
      case Some(i) => Some(i + 1)
  }

  lemma ShiftBack(store: seq<string>, r: Option<nat>)
    requires |store| > 0 && HasFiveFields(store[0])
    requires r.None? ==> forall j | 0 <= j < |store| - 1 :: HasFiveFields(store[1..][j])
    requires r.Some? ==> r.value < |store| - 1 && forall j | 0 <= j < r.value :: HasFiveFields(store[1..][j])
    ensures r.None? ==> forall j | 0 <= j < |store| :: HasFiveFields(store[j])
    ensures r.Some? ==> forall j | 0 <= j < r.value + 1 :: HasFiveFields(store[j])
  {
    forall j | 1 <= j < |store|
      ensures store[j] == store[1..][j - 1]
    {
    }
  }

  /** `export_keys(fmt)`. The empty-store check comes first, so an empty
      keystore reports "No data" whatever the format. JSON needs five words on
      every line and fails on the first line without them, before the file is
      opened; CSV accepts every line. */
  function ExportKeys(store: seq<string>, fmt: string): (r: Result<Exported, ExportError>)
    ensures store == [] <==> r == Err(NoData)
    ensures store != [] && fmt != "json" && fmt != "csv" ==> r == Err(UnsupportedFormat)
    ensures store != [] && fmt == "json" ==>
              (r.Ok? <==> forall j | 0 <= j < |store| :: HasFiveFields(store[j]))
    ensures r.Err? && r.error.ShortLine? ==>
              fmt == "json" && r.error.index < |store| && !HasFiveFields(store[r.error.index])
    ensures r.Ok? && fmt == "json" ==>
              && r.value.Json? && |r.value.entries| == |store|
              && forall j | 0 <= j < |store| :: r.value.entries[j] == LineEntry(store[j])
    ensures store != [] && fmt == "csv" ==>
              && r.Ok? && r.value.Csv? && |r.value.rows| == |store| + 1 && r.value.rows[0] == Header
              && forall j | 0 <= j < |store| :: r.value.rows[j + 1] == CsvLine(store[j])
  {
    if store == [] then Err(NoData)
    else if fmt == "json" then ExportJson(store)
    else if fmt == "csv" then Ok(Csv(ExportCsv(store)))
    else Err(UnsupportedFormat)
  }

  /** The JSON branch: one object per line, or the index of the first line
      whose `parts[4]` raises IndexError. */
  function ExportJson(store: seq<string>): (r: Result<Exported, ExportError>)
    ensures r.Ok? <==> forall j | 0 <= j < |store| :: HasFiveFields(store[j])
    ensures r.Err? ==> r.error.ShortLine? && r.error.index < |store| && !HasFiveFields(store[r.error.index])
    ensures r.Ok? ==>
              && r.value.Json? && |r.value.entries| == |store|
              && forall j | 0 <= j < |store| :: r.value.entries[j] == LineEntry(store[j])
  {
    match FirstShort(store)
    case Some(i) => Err(ShortLine(i))
    case None => Ok(Json(seq(|store|, j requires 0 <= j < |store| => LineEntry(store[j]))))
  }

  /** The CSV branch: the header row, then one padded row per line. */
  function ExportCsv(store: seq<string>): (rows: seq<seq<string>>)
    ensures |rows| == |store| + 1 && rows[0] == Header
    ensures forall j | 0 <= j < |store| :: rows[j + 1] == CsvLine(store[j])
  {
    seq(|store| + 1, k requires 0 <= k <= |store| => if k == 0 then Header else CsvLine(store[k - 1]))
  }

  /** `parts + [""] * (6 - len(parts))` for the words of one line. */
  function CsvLine(line: string): seq<string> {
    CsvRow(Fields(line))
  }

  // ---------------------------------------------------------------------------
  // import_keys

  /** `csv.DictReader` on one data row: each column name maps to the cell at
      its position (the last such position when a name repeats), and to the
      text `"None"` that the import f-string prints for a missing cell. */
  function DictRow(header: seq<string>, row: seq<string>): Item {
    if header == [] then map[]
    else
      var k := |header| - 1;
      var m := DictRow(header[..k], row);
      match KeyOf(header[k])
      case None => m
      case Some(key) => m[key := if k < |row| then row[k] else "None"]
  }

  /** The rows `csv.DictReader` turns into items: it passes over every blank
      row (`while row == []`) and keeps the others in order. */
  function DataRows(rows: seq<seq<string>>): (kept: seq<seq<string>>)
    ensures |kept| == |rows| - multiset(rows)[[]]
    ensures forall j | 0 <= j < |kept| :: kept[j] != [] && kept[j] in rows
    ensures (forall j | 0 <= j < |rows| :: rows[j] != []) ==> kept == rows
  {
    if rows == [] then []
    else
      assert rows == [rows[0]] + rows[1..];
      if rows[0] == [] then DataRows(rows[1..])
      else [rows[0]] + DataRows(rows[1..])
  }

  /** `csv.DictReader` over a table whose first row is the header: one item
      per non-blank row after it. */
  function DictRows(table: seq<seq<string>>): (items: seq<Item>)
    ensures |items| == if table == [] then 0 else |table| - 1 - multiset(table[1..])[[]]
    ensures table != [] ==>
              forall j | 0 <= j < |items| :: items[j] == DictRow(table[0], DataRows(table[1..])[j])
  {
    if table == [] then []
    else
      var data := DataRows(table[1..]);
      seq(|data|, j requires 0 <= j < |data| => DictRow(table[0], data[j]))
  }

  /** A blank line anywhere after the header of a CSV import adds no item and
      changes none. */
  lemma {:induction false} BlankRowSkipped(rows: seq<seq<string>>, k: nat)
    requires k <= |rows|
    ensures DataRows(rows[..k] + [[]] + rows[k..]) == DataRows(rows)
    decreases k
  {
    if k == 0 {
      assert rows[..0] + [[]] + rows[0..] == [[]] + rows;
      assert ([[]] + rows)[1..] == rows;
    } else {
      var with := rows[..k] + [[]] + rows[k..];
      assert with[0] == rows[0];
      assert with[1..] == rows[1..][..k - 1] + [[]] + rows[1..][k - 1..];
      BlankRowSkipped(rows[1..], k - 1);
      assert rows == [rows[0]] + rows[1..];
    }
  }

  /** Lifted to `DictReader`: a blank line after the header changes nothing
      that `import_keys` reads. */
  lemma BlankLineAddsNoItem(table: seq<seq<string>>, k: nat)
    requires 1 <= k <= |table|
    ensures DictRows(table[..k] + [[]] + table[k..]) == DictRows(table)
  {
    var with := table[..k] + [[]] + table[k..];
    assert with[0] == table[0];
    assert with[1..] == table[1..][..k - 1] + [[]] + table[1..][k - 1..];
    BlankRowSkipped(table[1..], k - 1);
  }

  /** The item has every key the import f-string reads. */
  predicate HasImportKeys(item: Item) {
    Secret in item && Type in item && Issuer in item && Label in item && Counter in item
  }

  /** The line the import f-string writes for `item` with id `id`: the id
      and a space first, and, when every value is one word, exactly the six
      words id, secret, type, issuer, label, counter. */
  function ImportLine(id: nat, item: Item): (line: string)
    requires HasImportKeys(item)
    ensures StartsWith(line, IntToString(id) + " ")
    ensures AllFields([item[Secret], item[Type], item[Issuer], item[Label], item[Counter]]) ==>
              Fields(line) == [IntToString(id), item[Secret], item[Type], item[Issuer], item[Label], item[Counter]]
  {
    var values := [item[Secret], item[Type], item[Issuer], item[Label], item[Counter]];
    assert AllFields(values) ==>
             Fields(Keystore.RecordLine(IntToString(id), item[Secret], item[Type], item[Issuer],
                                        item[Label], item[Counter]))
             == [IntToString(id), item[Secret], item[Type], item[Issuer], item[Label], item[Counter]] by {
      if AllFields(values) {
        assert IsField(values[0]) && IsField(values[1]) && IsField(values[2])
            && IsField(values[3]) && IsField(values[4]);
        Keystore.RecordLineFields(IntToString(id), item[Secret], item[Type], item[Issuer],
                                  item[Label], item[Counter]);
      }
    }
    Keystore.RecordLine(IntToString(id), item[Secret], item[Type], item[Issuer],
                        item[Label], item[Counter])
  }

  /** None of the five values of an item holds a line boundary. */
  predicate NoBreaksIn(item: Item)
    requires HasImportKeys(item)
  {
    && NoBreaks(item[Secret]) && NoBreaks(item[Type]) && NoBreaks(item[Issuer])
    && NoBreaks(item[Label]) && NoBreaks(item[Counter])
  }

  /** An item whose counter is empty, as the JSON export writes for a
      five-word record, gives a line that ends with a space. */
  lemma ImportLineEmptyCounter(id: nat, item: Item)
    requires HasImportKeys(item) && item[Counter] == ""
    ensures var line := ImportLine(id, item);
            |line| > 0 && line[|line| - 1] == ' '
  {
    var vals := [IntToString(id), item[Secret], item[Type], item[Issuer], item[Label]];
    assert vals + [""] == [IntToString(id), item[Secret], item[Type], item[Issuer], item[Label], item[Counter]];
    JoinSpAppendEmpty(vals);
  }

  /** `item[...]` raised KeyError on this item: the import stops there and
      nothing is saved. */
  datatype ImportError = MissingKey(item: nat)

  /** The first item lacking a key, if any. */
  function FirstMissing(items: seq<Item>): (r: Option<nat>)
    ensures r.None? <==> forall j | 0 <= j < |items| :: HasImportKeys(items[j])
    ensures r.Some? ==> r.value < |items| && !HasImportKeys(items[r.value])
    ensures r.Some? ==> forall j | 0 <= j < r.value :: HasImportKeys(items[j])
  {
    if items == [] then None
    else if !HasImportKeys(items[0]) then Some(0)
    else
      assert forall j | 1 <= j < |items| :: items[j] == items[1..][j - 1];
      match FirstMissing(items[1..])
      case None => None
      case Some(i) => Some(i + 1)
  }

  /** `import_keys(fmt)`: JSON and CSV items are appended in order, item `j`
      getting id `len(store) + 1 + j` (the value of
      `len(self.store) + len(new_entries) + 1` when it is built). Any other
      format imports nothing, and the keystore is saved as it was. */
  function ImportKeys(store: seq<string>, fmt: string, items: seq<Item>)
    : (r: Result<seq<string>, ImportError>)
    ensures fmt != "json" && fmt != "csv" ==> r == Ok(store)
    ensures (fmt == "json" || fmt == "csv") ==>
              (r.Ok? <==> forall j | 0 <= j < |items| :: HasImportKeys(items[j]))
    ensures r.Err? ==> && r.error.item < |items| && !HasImportKeys(items[r.error.item])
                       && forall j | 0 <= j < r.error.item :: HasImportKeys(items[j])
    ensures r.Ok? && (fmt == "json" || fmt == "csv") ==>
              && |r.value| == |store| + |items|
              && r.value[..|store|] == store
              && forall j | 0 <= j < |items| :: r.value[|store| + j] == ImportLine(|store| + 1 + j, items[j])
  {
    if fmt == "json" || fmt == "csv" then
      match FirstMissing(items)
      case Some(i) => Err(MissingKey(i))
      case None => Ok(store + NewEntries(|store|, items))
    else Ok(store)
  }

  /** `new_entries` after the loop: item `j` written with id `count + 1 + j`. */
  function NewEntries(count: nat, items: seq<Item>): (lines: seq<string>)
    requires forall j | 0 <= j < |items| :: HasImportKeys(items[j])
    ensures |lines| == |items|
    ensures forall j | 0 <= j < |items| :: lines[j] == ImportLine(count + 1 + j, items[j])
  {
    seq(|items|, j requires 0 <= j < |items| => ImportLine(count + 1 + j, items[j]))
  }

  /** Importing into a reloadable keystore keeps it reloadable when no
      imported value holds a line boundary and the last item's counter is a
      word. */
  lemma ImportKeepsReloadable(store: seq<string>, fmt: string, items: seq<Item>)
    requires ReloadableStore(store)
    requires forall j | 0 <= j < |items| :: HasImportKeys(items[j]) && NoBreaksIn(items[j])
    requires |items| > 0 ==> HasImportKeys(items[|items| - 1]) && IsField(items[|items| - 1][Counter])
    ensures ImportKeys(store, fmt, items).Ok?
    ensures ReloadableStore(ImportKeys(store, fmt, items).value)
  {
    if fmt == "json" || fmt == "csv" {
      var r := ImportKeys(store, fmt, items).value;
      ImportedNoBreaks(store, fmt, items);
      if |items| == 0 {
        assert r == r[..|store|] == store;
      } else {
        ImportLineWellFormed(|store| + |items|, items[|items| - 1]);
        ImportedLast(store, fmt, items);
        if |store| == 0 {
          var first := ImportLine(1, items[0]);
          assert r[0] == first;
          assert first[0] == IntToString(1)[0];
        } else {
          assert r[0] == r[..|store|][0];
        }
      }
    }
  }

  /** An import adds no line boundary when no imported value holds one. */
  lemma ImportedNoBreaks(store: seq<string>, fmt: string, items: seq<Item>)
    requires fmt == "json" || fmt == "csv"
    requires forall i | 0 <= i < |store| :: NoBreaks(store[i])
    requires forall j | 0 <= j < |items| :: HasImportKeys(items[j]) && NoBreaksIn(items[j])
    ensures ImportKeys(store, fmt, items).Ok?
    ensures var r := ImportKeys(store, fmt, items).value;
            forall i | 0 <= i < |r| :: NoBreaks(r[i])
  {
    var lines := NewEntries(|store|, items);
    NewEntriesNoBreaks(|store|, items);
    assert ImportKeys(store, fmt, items) == Ok(store + lines);
    AppendNoBreaks(store, lines);
  }

  /** No new line holds a boundary when no imported value does. */
  lemma NewEntriesNoBreaks(count: nat, items: seq<Item>)
    requires forall j | 0 <= j < |items| :: HasImportKeys(items[j]) && NoBreaksIn(items[j])
    ensures var lines := NewEntries(count, items);
            forall j | 0 <= j < |lines| :: NoBreaks(lines[j])
  {
    var lines := NewEntries(count, items);
    forall j | 0 <= j < |lines|
      ensures NoBreaks(lines[j])
    {
      ImportLineNoBreaks(count + 1 + j, items[j]);
    }
  }

  /** Lines without boundaries stay so when two lists are joined. */
  lemma AppendNoBreaks(a: seq<string>, b: seq<string>)
    requires forall i | 0 <= i < |a| :: NoBreaks(a[i])
    requires forall j | 0 <= j < |b| :: NoBreaks(b[j])
    ensures forall i | 0 <= i < |a + b| :: NoBreaks((a + b)[i])
  {
  }

  lemma ImportLineWellFormed(id: nat, item: Item)
    requires HasImportKeys(item) && NoBreaksIn(item) && IsField(item[Counter])
    ensures WellFormedLine(ImportLine(id, item))
  {
    Keystore.RecordLineWellFormed(IntToString(id), item[Secret], item[Type], item[Issuer],
                                  item[Label], item[Counter]);
  }

  lemma ImportLineNoBreaks(id: nat, item: Item)
    requires HasImportKeys(item) && NoBreaksIn(item)
    ensures NoBreaks(ImportLine(id, item))
  {
    FieldNoBreaks(IntToString(id));
    Keystore.RecordLineNoBreaks(IntToString(id), item[Secret], item[Type], item[Issuer],
                                item[Label], item[Counter]);
  }

  /** The converse case: when the last item's counter is empty, the keystore
      `import_keys` writes ends with a space and is not reloadable, so the
      next load gives back that line without its trailing space. */
  lemma ImportEmptyCounterLast(store: seq<string>, fmt: string, items: seq<Item>)
    requires fmt == "json" || fmt == "csv"
    requires forall j | 0 <= j < |items| :: HasImportKeys(items[j])
    requires |items| > 0 && HasImportKeys(items[|items| - 1]) && items[|items| - 1][Counter] == ""
    ensures ImportKeys(store, fmt, items).Ok?
    ensures var r := ImportKeys(store, fmt, items).value;
            LastLineEndsWith(r, ' ') && !ReloadableStore(r)
  {
    assert ImportKeys(store, fmt, items) == Ok(store + NewEntries(|store|, items));
    NewEntriesEmptyCounterLast(|store|, items);
    TrailingSpaceAppended(store, NewEntries(|store|, items));
  }

  /** The new lines end with the last item's, which ends in a space. */
  lemma NewEntriesEmptyCounterLast(count: nat, items: seq<Item>)
    requires forall j | 0 <= j < |items| :: HasImportKeys(items[j])
    requires |items| > 0 && HasImportKeys(items[|items| - 1]) && items[|items| - 1][Counter] == ""
    ensures LastLineEndsWith(NewEntries(count, items), ' ')
  {
    var k := |items| - 1;
    ImportLineEmptyCounter(count + 1 + k, items[k]);
    LastLineIs(NewEntries(count, items), k, ImportLine(count + 1 + k, items[k]), ' ');
  }

  /** `line`, sitting at the last index `k`, is the last line. */
  lemma LastLineIs(lines: seq<string>, k: nat, line: string, c: char)
    requires k + 1 == |lines| && lines[k] == line
    requires |line| > 0 && line[|line| - 1] == c
    ensures LastLineEndsWith(lines, c)
  {
  }

  /** New lines whose last one ends in a space leave the whole store ending
      in that space, which `strip()` would drop. */
  lemma TrailingSpaceAppended(store: seq<string>, lines: seq<string>)
    requires LastLineEndsWith(lines, ' ')
    ensures LastLineEndsWith(store + lines, ' ') && !ReloadableStore(store + lines)
  {
    var r := store + lines;
    assert r[|r| - 1] == lines[|lines| - 1];
    assert IsWs(' ');
    TrailingWsNotReloadable(r);
  }

  /** The last line an import writes is the last item's. */
  lemma ImportedLast(store: seq<string>, fmt: string, items: seq<Item>)
    requires fmt == "json" || fmt == "csv"
    requires forall j | 0 <= j < |items| :: HasImportKeys(items[j])
    requires |items| > 0
    ensures ImportKeys(store, fmt, items).Ok?
    ensures var r := ImportKeys(store, fmt, items).value;
            |r| > 0 && r[|r| - 1] == ImportLine(|store| + |items|, items[|items| - 1])
  {
    var lines := NewEntries(|store|, items);
    assert ImportKeys(store, fmt, items) == Ok(store + lines);
    assert (store + lines)[|store| + |items| - 1] == lines[|items| - 1];
  }

  /** Every imported line starts with its id followed by a space, and the id
      of the line at position `k` reads as `k + 1`: the ids run on from the
      number of lines already there. */
  lemma ImportIds(store: seq<string>, fmt: string, items: seq<Item>)
    requires fmt == "json" || fmt == "csv"
    requires ImportKeys(store, fmt, items).Ok?
    ensures var out := ImportKeys(store, fmt, items).value;
            forall k | |store| <= k < |out| ::
              StartsWith(out[k], IntToString(k + 1) + " ") && ParseInt(IntToString(k + 1)) == Some(k + 1)
  {
    var out := ImportKeys(store, fmt, items).value;
    forall k | |store| <= k < |out|
      ensures StartsWith(out[k], IntToString(k + 1) + " ")
      ensures ParseInt(IntToString(k + 1)) == Some(k + 1)
    {
      var item := items[k - |store|];
      var id := IntToString(k + 1);
      assert out[k] == ImportLine(k + 1, item);
      ParseIntToString(k + 1);
    }
  }

  // ---------------------------------------------------------------------------
  // Export followed by import

  /** A line written with an empty last value ends in a space, which the next
      read drops: its words are those of the other values. */
  lemma FieldsOfTrailingEmpty(fs: seq<string>)
    requires AllFields(fs) && |fs| > 0
    ensures Fields(JoinSp(fs + [""])) == fs
  {
    JoinSpAppendEmpty(fs);
    FieldsOfJoinSp(fs);
    StripTrailingSpace(JoinSp(fs));
  }

  /** `strip()` removes the one space a trailing empty value leaves behind. */
  lemma StripTrailingSpace(x: string)
    requires WellFormedLine(x)
    ensures Strip(x + " ") == x && Strip(x) == x
  {
    var y := x + " ";
    assert y[0] == x[0];
    LStripNonWs(y);
    LStripNonWs(x);
    assert y[..|y| - 1] == x && IsWs(y[|y| - 1]);
    assert RStrip(y) == RStrip(x) == x;
  }

  lemma {:induction false} JoinSpAppendEmpty(fs: seq<string>)
    requires |fs| > 0
    ensures JoinSp(fs + [""]) == JoinSp(fs) + " "
  {
    if |fs| == 1 {
      assert fs + [""] == [fs[0]] + [""];
      JoinSpCons(fs[0], [""]);
    } else {
      JoinSpAppendEmpty(fs[1..]);
      assert fs + [""] == [fs[0]] + (fs[1..] + [""]);
      JoinSpCons(fs[0], fs[1..] + [""]);
      assert fs == [fs[0]] + fs[1..];
      JoinSpCons(fs[0], fs[1..]);
    }
  }

  /** Importing the JSON entry of a line with five or more words writes a line
      whose words are the new id, then words two to six of the original (the
      counter word only when there was one). */
  lemma ImportedEntryFields(id: nat, parts: seq<string>)
    requires AllFields(parts) && |parts| >= 5
    ensures HasImportKeys(JsonEntry(parts))
    ensures Fields(ImportLine(id, JsonEntry(parts)))
         == [IntToString(id)] + parts[1..if |parts| > 5 then 6 else 5]
  {
    var e := JsonEntry(parts);
    var sid := IntToString(id);
    assert ImportLine(id, e) == Keystore.RecordLine(sid, parts[1], parts[2], parts[3], parts[4], e[Counter]);
    if |parts| > 5 {
      SixWordLine(sid, parts);
    } else {
      FiveWordLine(sid, parts);
    }
  }

  /** A record line built from a new id and words two to six of a line. */
  lemma SixWordLine(sid: string, parts: seq<string>)
    requires IsField(sid) && AllFields(parts) && |parts| >= 6
    ensures Fields(Keystore.RecordLine(sid, parts[1], parts[2], parts[3], parts[4], parts[5]))
         == [sid] + parts[1..6]
  {
    assert IsField(parts[1]) && IsField(parts[2]) && IsField(parts[3]);
    assert IsField(parts[4]) && IsField(parts[5]);
    Keystore.RecordLineFields(sid, parts[1], parts[2], parts[3], parts[4], parts[5]);
    assert [sid] + parts[1..6] == [sid, parts[1], parts[2], parts[3], parts[4], parts[5]];
  }

  /** A record line built from a new id, words two to five of a line and an
      empty counter reads back without the counter. */
  lemma FiveWordLine(sid: string, parts: seq<string>)
    requires IsField(sid) && AllFields(parts) && |parts| >= 5
    ensures Fields(Keystore.RecordLine(sid, parts[1], parts[2], parts[3], parts[4], ""))
         == [sid] + parts[1..5]
  {
    var five := [sid, parts[1], parts[2], parts[3], parts[4]];
    assert IsField(parts[1]) && IsField(parts[2]) && IsField(parts[3]) && IsField(parts[4]);
    assert AllFields(five);
    assert [sid, parts[1], parts[2], parts[3], parts[4], ""] == five + [""];
    FieldsOfTrailingEmpty(five);
    assert [sid] + parts[1..5] == five;
  }

  /** Export to JSON and import into any keystore: the import succeeds, keeps
      the existing lines, and every exported record comes back with a fresh id
      and the same secret, type, issuer, label and counter. Records without a
      counter come back without one. */
  lemma ExportImportRoundTrip(source: seq<string>, target: seq<string>)
    requires source != []
    requires forall j | 0 <= j < |source| :: HasFiveFields(source[j])
    ensures ExportKeys(source, "json").Ok?
    ensures var items := ExportKeys(source, "json").value.entries;
            var r := ImportKeys(target, "json", items);
            && r.Ok? && |r.value| == |target| + |source| && r.value[..|target|] == target
            && forall j | 0 <= j < |source| ::
                 var parts := Fields(source[j]);
                 Fields(r.value[|target| + j])
                   == [IntToString(|target| + 1 + j)] + parts[1..if |parts| > 5 then 6 else 5]
  {
    var ex := ExportJson(source);
    assert ExportKeys(source, "json") == ex;
    var items := ex.value.entries;
    forall j | 0 <= j < |items|
      ensures items[j] == JsonEntry(Fields(source[j])) && HasImportKeys(items[j])
    {
      ImportedEntryFields(|target| + 1 + j, Fields(source[j]));
    }
    var r := ImportKeys(target, "json", items);
    assert r.Ok?;
    var out := r.value;
    forall j | 0 <= j < |source|
      ensures var parts := Fields(source[j]);
              Fields(out[|target| + j])
                == [IntToString(|target| + 1 + j)] + parts[1..if |parts| > 5 then 6 else 5]
    {
      ImportedLine(source[j], |target| + 1 + j, items[j], out[|target| + j]);
    }
  }

  /** One record of the round trip: the line imported from a line's JSON
      object carries the new id and the line's other words. */
  lemma ImportedLine(line: string, id: nat, item: Item, out: string)
    requires HasFiveFields(line) && item == JsonEntry(Fields(line))
    requires out == ImportLine(id, item)
    ensures var parts := Fields(line);
            Fields(out) == [IntToString(id)] + parts[1..if |parts| > 5 then 6 else 5]
  {
    ImportedEntryFields(id, Fields(line));
  }

  /** `csv.DictReader` over a CSV export yields exactly the entries of the
      JSON export, so importing either file gives the same records. */
  lemma CsvExportMatchesJson(store: seq<string>)
    requires store != []
    requires forall j | 0 <= j < |store| :: HasFiveFields(store[j])
    ensures ExportKeys(store, "csv").Ok? && ExportKeys(store, "json").Ok?
    ensures DictRows(ExportKeys(store, "csv").value.rows) == ExportKeys(store, "json").value.entries
  {
    assert ExportKeys(store, "csv") == Ok(Csv(ExportCsv(store)));
    assert ExportKeys(store, "json") == ExportJson(store);
    CsvRowsAreJsonEntries(store);
  }

  lemma CsvRowsAreJsonEntries(store: seq<string>)
    requires forall j | 0 <= j < |store| :: HasFiveFields(store[j])
    ensures ExportJson(store).Ok?
    ensures DictRows(ExportCsv(store)) == ExportJson(store).value.entries
  {
    var rows := ExportCsv(store);
    var entries := ExportJson(store).value.entries;
    CsvExportHasNoBlankRow(store);
    assert |DictRows(rows)| == |entries|;
    forall j | 0 <= j < |store|
      ensures DictRows(rows)[j] == entries[j]
    {
      CsvRowRead(store, j);
      DictRowOfCsvRow(Fields(store[j]));
    }
  }

  /** `DictReader`'s item `j` of a CSV export is the export's row for line `j`
      read under the header. */
  lemma CsvRowRead(store: seq<string>, j: nat)
    requires j < |store|
    ensures DictRows(ExportCsv(store))[j] == DictRow(Header, CsvLine(store[j]))
  {
    var rows := ExportCsv(store);
    assert rows[0] == Header;
    CsvExportHasNoBlankRow(store);
    assert DictRows(rows)[j] == DictRow(rows[0], rows[j + 1]);
  }

  /** Every data row of a CSV export has at least six cells, so reading it
      back skips none of them. */
  lemma CsvExportHasNoBlankRow(store: seq<string>)
    ensures DataRows(ExportCsv(store)[1..]) == ExportCsv(store)[1..]
  {
    var data := ExportCsv(store)[1..];
    assert forall k | 0 <= k < |data| :: data[k] == CsvLine(store[k]) && |data[k]| >= 6;
  }

  lemma DictRowOfCsvRow(parts: seq<string>)
    requires |parts| >= 5
    ensures DictRow(Header, CsvRow(parts)) == JsonEntry(parts)
  {
    var row := CsvRow(parts);
    assert row[..|parts|] == parts;
    assert forall i | 0 <= i < 5 :: row[i] == parts[i];
    assert KeyOf("id") == Some(Id);
    assert KeyOf("secret") == Some(Secret) by { assert "secret"[0] != "id"[0]; }
    assert KeyOf("type") == Some(Type) by { assert "type"[0] != "secret"[0]; }
    assert KeyOf("issuer") == Some(Issuer) by {
      assert "issuer"[0] != "secret"[0] && "issuer"[0] != "type"[0];
    }
    assert KeyOf("label") == Some(Label) by {
      assert "label"[0] != "issuer"[0] && "label"[0] != "secret"[0] && "label"[0] != "type"[0];
    }
    assert KeyOf("counter") == Some(Counter) by {
      assert "counter"[0] != "issuer"[0] && "counter"[0] != "secret"[0] && "counter"[0] != "label"[0];
    }
    assert DictRow([], row) == map[];
    var m1 := DictRow(["id"], row);
    assert ["id"][..0] == [];
    assert m1 == map[Id := row[0]];
    var m2 := DictRow(["id", "secret"], row);
    assert ["id", "secret"][..1] == ["id"];
    assert m2 == m1[Secret := row[1]];
    var m3 := DictRow(["id", "secret", "type"], row);
    assert ["id", "secret", "type"][..2] == ["id", "secret"];
    assert m3 == m2[Type := row[2]];
    var m4 := DictRow(["id", "secret", "type", "issuer"], row);
    assert ["id", "secret", "type", "issuer"][..3] == ["id", "secret", "type"];
    assert m4 == m3[Issuer := row[3]];
    var m5 := DictRow(["id", "secret", "type", "issuer", "label"], row);
    assert ["id", "secret", "type", "issuer", "label"][..4] == ["id", "secret", "type", "issuer"];
    assert m5 == m4[Label := row[4]];
    assert Header[..5] == ["id", "secret", "type", "issuer", "label"];
    assert DictRow(Header, row) == m5[Counter := row[5]];
  }
}

=== FILE: uri.dfy ===
/** The provisioning URI `generate_qr` of otpgen/otpgen.py puts in a QR code:
    `otpauth://{type}/{quote(label)}?secret={secret}&issuer={quote(issuer)}`.

    `urllib.parse.quote(s)` (default `safe="/"`) is percent-encoding as in
    section 2.1 of RFC 3986, applied to the UTF-8 bytes of `s`: letters, digits,
    `_ . - ~` and `/` stay as they are, and every other byte becomes `%HH`
    with upper-case hex digits. Rendering the QR image, naming the output file
    and opening a viewer are not modelled. */
module Uri {
  import opened Wrappers
  import opened Utf8
  import opened PyText
  import Keystore

  /** The bytes `quote` never encodes: its always-safe set plus the default
      `safe="/"`. */
  predicate IsSafeByte(b: byte) {
    || ('A' as int <= b <= 'Z' as int)
    || ('a' as int <= b <= 'z' as int)
    || ('0' as int <= b <= '9' as int)
    || b == '_' as int || b == '.' as int || b == '-' as int || b == '~' as int
    || b == '/' as int
  }

  predicate IsSafeChar(c: char) {
    (c as int) < 0x80 && IsSafeByte(c as int)
  }

  predicate IsHexDigit(c: char) {
    ('0' <= c <= '9') || ('A' <= c <= 'F') || ('a' <= c <= 'f')
  }

  function HexValue(c: char): (v: nat)
    requires IsHexDigit(c)
    ensures v < 16
  {
    if '0' <= c <= '9' then (c as int) - ('0' as int)
    else if 'A' <= c <= 'F' then (c as int) - ('A' as int) + 10
    else (c as int) - ('a' as int) + 10
  }

  /** A character `quote` can emit: a safe character, `%`, or a hex digit. */
  predicate IsQuotedChar(c: char) {
    IsSafeChar(c) || c == '%' || IsHexDigit(c)
  }

  /** The upper-case hex digit `quote` writes for `d`. */
  function HexDigit(d: nat): (c: char)
    requires d < 16
    ensures IsHexDigit(c) && HexValue(c) == d
  {
    if d < 10 then ('0' as int + d) as char else ('A' as int + d - 10) as char
  }

  /** `%HH` for one byte. */
  function PercentByte(b: byte): (t: string)
    ensures |t| == 3 && t[0] == '%' && IsHexDigit(t[1]) && IsHexDigit(t[2])
    ensures HexValue(t[1]) * 16 + HexValue(t[2]) == b
  {
    ['%', HexDigit(b / 16), HexDigit(b % 16)]
  }

  /** `quote_from_bytes`: each safe byte as its character, every other byte as
      `%HH`. */
  function QuoteBytes(bs: Bytes): (t: string)
    ensures forall i | 0 <= i < |t| :: IsQuotedChar(t[i])
    ensures |t| >= |bs|
  {
    if bs == [] then ""
    else
      var head := if IsSafeByte(bs[0]) then [bs[0] as char] else PercentByte(bs[0]);
      head + QuoteBytes(bs[1..])
  }

  /** `urllib.parse.quote(s)`. */
  function Quote(s: string): (t: string)
    ensures forall i | 0 <= i < |t| :: IsQuotedChar(t[i])
  {
    QuoteBytes(Encode(s))
  }

  /** Percent-decoding (section 2.1 of RFC 3986): `%HH` (either case) stands for
      that byte, every other character for its UTF-8 bytes. `None` for a `%`
      not followed by two hex digits. */
  function PercentDecode(t: string): (r: Option<Bytes>)
    decreases |t|
  {
    if t == [] then Some([])
    else if t[0] == '%' then
      if |t| >= 3 && IsHexDigit(t[1]) && IsHexDigit(t[2]) then
        match PercentDecode(t[3..])
        case None => None
        case Some(rest) => Some([HexValue(t[1]) * 16 + HexValue(t[2])] + rest)
      else None
    else
      match PercentDecode(t[1..])
      case None => None
      case Some(rest) => Some(EncodeChar(t[0]) + rest)
  }

  /** `unquote`: percent-decoding followed by UTF-8 decoding. `None` where the
      library would substitute U+FFFD or keep a stray `%`. */
  function Unquote(t: string): Option<string> {
    match PercentDecode(t)
    case None => None
    case Some(bs) => Decode(bs)
  }

  lemma {:induction false} PercentDecodeQuoteBytes(bs: Bytes)
    ensures PercentDecode(QuoteBytes(bs)) == Some(bs)
  {
    if bs != [] {
      var b := bs[0];
      var rest := QuoteBytes(bs[1..]);
      PercentDecodeQuoteBytes(bs[1..]);
      if IsSafeByte(b) {
        var t := [b as char] + rest;
        assert t[0] == b as char && t[1..] == rest;
        assert EncodeChar(b as char) == [b];
      } else {
        var p := PercentByte(b);
        var t := p + rest;
        assert t[0] == '%' && t[1] == p[1] && t[2] == p[2] && t[3..] == rest;
      }
      assert [b] + bs[1..] == bs;
    }
  }

  /** Quoting loses nothing: unquoting gives back the original string, for
      every string. */
  lemma UnquoteQuote(s: string)
    ensures PercentDecode(Quote(s)) == Some(Encode(s))
    ensures Unquote(Quote(s)) == Some(s)
  {
    PercentDecodeQuoteBytes(Encode(s));
    DecodeEncode(s);
  }

  /** Two different labels (or issuers) never give the same quoted text. */
  lemma QuoteInjective(a: string, b: string)
    requires Quote(a) == Quote(b)
    ensures a == b
  {
    UnquoteQuote(a);
    UnquoteQuote(b);
  }

  /** `quote` leaves a string of safe characters exactly as it is. */
  lemma {:induction false} QuoteSafe(s: string)
    requires forall i | 0 <= i < |s| :: IsSafeChar(s[i])
    ensures Quote(s) == s
  {
    if s != [] {
      QuoteSafe(s[1..]);
      assert EncodeChar(s[0]) == [s[0] as int];
      assert Encode(s) == [s[0] as int] + Encode(s[1..]);
      assert [s[0] as int][1..] + Encode(s[1..]) == Encode(s[1..]);
      assert ([s[0] as int] + Encode(s[1..]))[1..] == Encode(s[1..]);
      assert [s[0]] + s[1..] == s;
    }
  }

  /** A character outside the safe set never survives `quote`: its first
      UTF-8 byte is written as `%HH`. */
  lemma QuoteUnsafeHead(c: char, rest: string)
    requires !IsSafeChar(c)
    ensures var t := Quote([c] + rest); |t| >= 3 && t[0] == '%'
  {
    var bs := Encode([c] + rest);
    assert ([c] + rest)[0] == c && ([c] + rest)[1..] == rest;
    assert bs == EncodeChar(c) + Encode(rest);
    assert bs[0] == EncodeChar(c)[0];
    if (c as int) < 0x80 {
      assert !IsSafeByte(bs[0]);
    } else {
      assert bs[0] >= 0xC0;
    }
  }

  /** The provisioning URI for a record's words. */
  function ProvisioningUri(otpType: string, accountLabel: string, secret: string, issuer: string): (uri: string)
    ensures StartsWith(uri, "otpauth://" + otpType + "/")
    ensures EndsWith(uri, "&issuer=" + Quote(issuer))
  {
    "otpauth://" + (otpType + ("/" + (Quote(accountLabel) + ("?secret=" + (secret + ("&issuer=" + Quote(issuer)))))))
  }

  /** Index of the first character of `s` in `marks`, or `|s|` when there is
      none. */
  function FindAny(s: string, marks: set<char>): (k: nat)
    ensures k <= |s|
    ensures k < |s| ==> s[k] in marks
    ensures forall i | 0 <= i < k :: s[i] !in marks
  {
    if s == [] then 0
    else if s[0] in marks then 0
    else 1 + FindAny(s[1..], marks)
  }

  /** A text cut at the first `m` comes apart the same way however it was
      built, as long as the part before the cut has no `m`. */
  lemma SplitAtFirst(a: string, b: string, c: string, d: string, m: char)
    requires m !in a && m !in c
    requires a + ([m] + b) == c + ([m] + d)
    ensures a == c && b == d
  {
    var s := a + ([m] + b);
    assert s[|a|] in {m} && s[|c|] in {m};
    assert s[|a|] == m && s[|c|] == m;
    assert forall i | 0 <= i < |a| :: s[i] == a[i];
    assert forall i | 0 <= i < |c| :: s[i] == c[i];
    var k := FindAny(s, {m});
    assert k == |a| && k == |c|;
    assert a == s[..k] == c;
    assert b == s[k + 1..] == d;
  }

  lemma DropPrefix(p: string, x: string, y: string)
    requires p + x == p + y
    ensures x == y
  {
    assert x == (p + x)[|p|..];
  }

  lemma QuoteHasNo(s: string, m: char)
    requires !IsQuotedChar(m)
    ensures m !in Quote(s)
  {
  }

  /** The pieces of a provisioning URI, each behind its separator. */
  lemma ProvisioningUriPieces(otpType: string, accountLabel: string, secret: string, issuer: string)
    ensures ProvisioningUri(otpType, accountLabel, secret, issuer)
            == "otpauth://" + (otpType + (['/'] + (Quote(accountLabel) + (['?'] + ("secret="
               + (secret + (['&'] + ("issuer=" + Quote(issuer)))))))))
  {
    assert "/" == ['/'];
    assert "?secret=" == ['?'] + "secret=";
    assert "&issuer=" == ['&'] + "issuer=";
    assert "?secret=" + (secret + ("&issuer=" + Quote(issuer)))
        == ['?'] + ("secret=" + (secret + (['&'] + ("issuer=" + Quote(issuer)))));
  }

  /** A provisioning URI determines the words it was made from: the type up
      to the first `/`, the label up to the first `?` (`quote` never writes
      one and loses nothing), the secret up to the first `&`, the issuer after
      that. It holds whenever the type has no `/` and the secret no `&`, as
      is the case for `totp`/`hotp` and base32 secrets. */
  lemma ProvisioningUriInjective(t1: string, l1: string, s1: string, i1: string,
                                 t2: string, l2: string, s2: string, i2: string)
    requires '/' !in t1 && '/' !in t2 && '&' !in s1 && '&' !in s2
    requires ProvisioningUri(t1, l1, s1, i1) == ProvisioningUri(t2, l2, s2, i2)
    ensures t1 == t2 && l1 == l2 && s1 == s2 && i1 == i2
  {
    ProvisioningUriPieces(t1, l1, s1, i1);
    ProvisioningUriPieces(t2, l2, s2, i2);
    var r1 := ['/'] + (Quote(l1) + (['?'] + ("secret=" + (s1 + (['&'] + ("issuer=" + Quote(i1)))))));
    var r2 := ['/'] + (Quote(l2) + (['?'] + ("secret=" + (s2 + (['&'] + ("issuer=" + Quote(i2)))))));
    DropPrefix("otpauth://", t1 + r1, t2 + r2);
    SplitAtFirst(t1, r1[1..], t2, r2[1..], '/');
    QuoteHasNo(l1, '?');
    QuoteHasNo(l2, '?');
    var q1 := "secret=" + (s1 + (['&'] + ("issuer=" + Quote(i1))));
    var q2 := "secret=" + (s2 + (['&'] + ("issuer=" + Quote(i2))));
    SplitAtFirst(Quote(l1), q1, Quote(l2), q2, '?');
    DropPrefix("secret=", s1 + (['&'] + ("issuer=" + Quote(i1))), s2 + (['&'] + ("issuer=" + Quote(i2))));
    SplitAtFirst(s1, "issuer=" + Quote(i1), s2, "issuer=" + Quote(i2), '&');
    DropPrefix("issuer=", Quote(i1), Quote(i2));
    QuoteInjective(l1, l2);
    QuoteInjective(i1, i2);
  }

  // ---------------------------------------------------------------------------
  // Reading a provisioning URI back (`add_key` with a QR image)

  /** `s.lstrip(m)` */
  function LStripChar(s: string, m: char): (r: string)
    ensures |r| <= |s| && r == s[|s| - |r|..]
    ensures r != [] ==> r[0] != m
    ensures s != [] && s[0] != m ==> r == s
  {
    if s != [] && s[0] == m then LStripChar(s[1..], m) else s
  }

  /** `s.rstrip(m)` */
  function RStripChar(s: string, m: char): (r: string)
    ensures |r| <= |s| && r == s[..|r|]
    ensures r == [] || r[|r| - 1] != m
    ensures s != [] && s[0] != m ==> r != []
  {
    if s != [] && s[|s| - 1] == m then RStripChar(s[..|s| - 1], m) else s
  }

  /** `urlparse(uri).path` for an `otpauth://` URI: after the scheme, the
      network location runs to the first `/`, `?` or `#`, and the path from
      there to the first `?` or `#`. `None` for any other scheme. */
  function UriPath(uri: string): (p: Option<string>)
    ensures p.Some? <==> StartsWith(uri, "otpauth://")
    ensures p.Some? ==> '?' !in p.value && '#' !in p.value
    ensures p.Some? && p.value != [] ==> p.value[0] == '/'
  {
    if |uri| >= 10 && uri[..10] == "otpauth://" then
      var rest := uri[10..];
      var tail := rest[FindAny(rest, {'/', '?', '#'})..];
      var path := tail[..FindAny(tail, {'?', '#'})];
      assert forall i | 0 <= i < |path| :: path[i] !in {'?', '#'};
      Some(path)
    else None
  }

  /** The path of a provisioning URI is `/` and the quoted label, whenever the
      type has none of the characters that end a network location. */
  lemma UriPathOfProvisioning(otpType: string, accountLabel: string, secret: string, issuer: string)
    requires '/' !in otpType && '?' !in otpType && '#' !in otpType
    ensures UriPath(ProvisioningUri(otpType, accountLabel, secret, issuer)) == Some("/" + Quote(accountLabel))
  {
    var q := Quote(accountLabel);
    var query := "?secret=" + (secret + ("&issuer=" + Quote(issuer)));
    var path := "/" + q;
    var tail := path + query;
    assert "/" + (q + query) == tail;
    var rest := otpType + tail;
    var uri := ProvisioningUri(otpType, accountLabel, secret, issuer);
    assert uri == "otpauth://" + rest;
    assert uri[..10] == "otpauth://" && uri[10..] == rest;
    FindAnyAt(otpType, tail, {'/', '?', '#'});
    assert rest[|otpType|..] == tail;
    QuotedPathEnds(accountLabel, query);
  }

  /** The path `/quote(label)` ends where the query begins. */
  lemma QuotedPathEnds(accountLabel: string, query: string)
    requires query != [] && query[0] == '?'
    ensures var tail := "/" + Quote(accountLabel) + query;
            tail[..FindAny(tail, {'?', '#'})] == "/" + Quote(accountLabel)
  {
    var q := Quote(accountLabel);
    var path := "/" + q;
    QuoteHasNo(accountLabel, '?');
    QuoteHasNo(accountLabel, '#');
    assert forall j | 0 <= j < |path| :: path[j] !in {'?', '#'} by {
      assert forall j | 1 <= j < |path| :: path[j] == q[j - 1];
    }
    FindAnyAt(path, query, {'?', '#'});
    assert (path + query)[..|path|] == path;
  }

  /** The first mark in `a + b` is the first character of `b` when `a` has
      none and `b` starts with one. */
  lemma FindAnyAt(a: string, b: string, marks: set<char>)
    requires forall j | 0 <= j < |a| :: a[j] !in marks
    requires b != [] && b[0] in marks
    ensures FindAny(a + b, marks) == |a|
  {
    var s := a + b;
    assert forall j | 0 <= j < |a| :: s[j] == a[j];
    assert s[|a|] == b[0];
  }

  /** The label `add_key` takes from a scanned provisioning URI, as written:
      `parsed.path.strip("/")`, with no percent-decoding. */
  function QrLabelAsWritten(uri: string): (r: Option<string>)
    ensures r.Some? <==> StartsWith(uri, "otpauth://")
    ensures r.Some? && r.value != [] ==> r.value[0] != '/' && r.value[|r.value| - 1] != '/'
  {
    match UriPath(uri)
    case None => None
    case Some(path) => Some(RStripChar(LStripChar(path, '/'), '/'))
  }

  /** As written, a label that starts with a character `quote` encodes (other
      than `%`) does not survive `generate_qr` followed by `add_key`: the
      label read back starts with `%`. For `@home` it comes back as
      `%40home`. */
  lemma QrLabelAsWrittenDiffers(otpType: string, accountLabel: string, secret: string, issuer: string)
    requires '/' !in otpType && '?' !in otpType && '#' !in otpType
    requires accountLabel != [] && !IsSafeChar(accountLabel[0]) && accountLabel[0] != '%'
    ensures var r := QrLabelAsWritten(ProvisioningUri(otpType, accountLabel, secret, issuer));
            r.Some? && r.value != [] && r.value[0] == '%' && r.value != accountLabel
  {
    UriPathOfProvisioning(otpType, accountLabel, secret, issuer);
    SlashQuotedStrip(accountLabel);
  }

  lemma SlashQuotedStrip(accountLabel: string)
    requires accountLabel != [] && !IsSafeChar(accountLabel[0]) && accountLabel[0] != '%'
    ensures var r := RStripChar(LStripChar("/" + Quote(accountLabel), '/'), '/');
            r != [] && r[0] == '%' && r != accountLabel
  {
    var q := Quote(accountLabel);
    assert [accountLabel[0]] + accountLabel[1..] == accountLabel;
    QuoteUnsafeHead(accountLabel[0], accountLabel[1..]);
    assert ("/" + q)[0] == '/' && ("/" + q)[1..] == q;
    assert LStripChar("/" + q, '/') == q;
  }

  /** The label as `add_key` evidently means to read it: the path after its
      leading `/`, percent-decoded as `quote` encoded it. */
  function QrLabel(uri: string): Option<string> {
    match UriPath(uri)
    case None => None
    case Some(path) => if path == [] then None else Unquote(path[1..])
  }

  /** Every label survives `generate_qr` followed by the corrected reading. */
  lemma QrLabelRoundTrip(otpType: string, accountLabel: string, secret: string, issuer: string)
    requires '/' !in otpType && '?' !in otpType && '#' !in otpType
    ensures QrLabel(ProvisioningUri(otpType, accountLabel, secret, issuer)) == Some(accountLabel)
  {
    UriPathOfProvisioning(otpType, accountLabel, secret, issuer);
    assert ("/" + Quote(accountLabel))[1..] == Quote(accountLabel);
    UnquoteQuote(accountLabel);
  }

  /** A QR code `generate_qr` produces: the line it came from and its URI. */
  datatype QrCode = QrCode(index: nat, uri: string)

  /** Whether `generate_qr` takes `line` for `keyId`: its first word matches
      AND it has at least five words. Unlike `generate_token`, a matching line
      that is too short is skipped, not reported. */
  predicate QrMatches(line: string, keyId: string) {
    Keystore.IdMatches(line, keyId) && |Fields(line)| >= 5
  }

  /** `generate_qr`: the URI of the first line that matches with five words, or
      `None` ("Key not found or missing fields for QR generation."). */
  function QrUri(store: seq<string>, keyId: string): (r: Option<QrCode>)
    ensures r.None? <==> forall j | 0 <= j < |store| :: !QrMatches(store[j], keyId)
    ensures r.Some? ==>
              && r.value.index < |store|
              && QrMatches(store[r.value.index], keyId)
              && (forall j | 0 <= j < r.value.index :: !QrMatches(store[j], keyId))
              && var parts := Fields(store[r.value.index]);
              && r.value.uri == ProvisioningUri(parts[2], parts[4], parts[1], parts[3])
    decreases |store|
  {
    if store == [] then None
    else if QrMatches(store[0], keyId) then
      var parts := Fields(store[0]);
      Some(QrCode(0, ProvisioningUri(parts[2], parts[4], parts[1], parts[3])))
    else
      var r := QrUri(store[1..], keyId);
      QrShift(store, keyId, r);
      if r.None? then None else Some(QrCode(r.value.index + 1, r.value.uri))
  }

  lemma QrShift(store: seq<string>, keyId: string, r: Option<QrCode>)
    requires |store| > 0 && !QrMatches(store[0], keyId)
    requires r.None? ==> forall j | 0 <= j < |store| - 1 :: !QrMatches(store[1..][j], keyId)
    requires r.Some? ==> r.value.index < |store| - 1
                         && forall j | 0 <= j < r.value.index :: !QrMatches(store[1..][j], keyId)
    ensures r.None? ==> forall j | 0 <= j < |store| :: !QrMatches(store[j], keyId)
    ensures r.Some? ==> forall j | 0 <= j < r.value.index + 1 :: !QrMatches(store[j], keyId)
  {
    forall j | 1 <= j < |store|
      ensures store[j] == store[1..][j - 1]
    {
    }
  }

  /** `generate_token` and `generate_qr` disagree on a short first match:
      the first stops with "Missing required fields", the second skips the
      line and goes on to a later one with the same id. */
  lemma QrSkipsShortMatch(store: seq<string>, keyId: string, otp: Keystore.OtpEngine, i: nat)
    requires Keystore.FirstMatch(store, keyId, i)
    requires |Fields(store[i])| < 5
    ensures Keystore.GenerateToken(store, keyId, otp) == Err(Keystore.MissingFields)
    ensures QrUri(store, keyId).Some? ==> QrUri(store, keyId).value.index > i
  {
    Keystore.GenerateCases(store, keyId, otp, i);
    QrAfterFirstMatch(store, keyId, i);
  }

  lemma QrAfterFirstMatch(store: seq<string>, keyId: string, i: nat)
    requires Keystore.FirstMatch(store, keyId, i)
    requires !QrMatches(store[i], keyId)
    ensures QrUri(store, keyId).Some? ==> QrUri(store, keyId).value.index > i
  {
    var q := QrUri(store, keyId);
    if q.Some? {
      var k := q.value.index;
      assert QrMatches(store[k], keyId);
      assert Keystore.IdMatches(store[k], keyId);
      assert k != i;
      assert !(k < i);
    }
  }
}

=== FILE: utf8.dfy ===
/** UTF-8, as Python's `str.encode()` and strict `bytes.decode()` apply it
    (section 3 of RFC 3629). The keystore plaintext is the UTF-8 encoding of the
    joined lines, and `urllib.parse.quote` percent-encodes the UTF-8 bytes of
    every character it does not leave alone. */
module Utf8 {
  import opened Wrappers

  type byte = b: int | 0 <= b < 256
  type Bytes = seq<byte>

  /** A continuation byte `10xxxxxx`. */
  predicate IsCont(b: byte) {
    0x80 <= b < 0xC0
  }

  /** The shortest UTF-8 form of one scalar value. */
  function EncodeChar(c: char): (bs: Bytes)
    ensures 1 <= |bs| <= 4
    ensures |bs| == 1 <==> (c as int) < 0x80
    ensures |bs| == 1 ==> bs[0] == c as int
    ensures forall i | 1 <= i < |bs| :: IsCont(bs[i])
  {
    var n := c as int;
    if n < 0x80 then [n]
    else if n < 0x800 then [0xC0 + n / 64, 0x80 + n % 64]
    else if n < 0x10000 then [0xE0 + n / 4096, 0x80 + (n / 64) % 64, 0x80 + n % 64]
    else [0xF0 + n / 262144, 0x80 + (n / 4096) % 64, 0x80 + (n / 64) % 64, 0x80 + n % 64]
  }

  /** `s.encode()`: the characters' encodings, concatenated in order. */
  function Encode(s: string): (bs: Bytes)
    ensures |bs| >= |s|
    ensures bs == [] <==> s == []
    ensures (forall i | 0 <= i < |s| :: (s[i] as int) < 0x80) ==> |bs| == |s|
  {
    if s == [] then [] else EncodeChar(s[0]) + Encode(s[1..])
  }

  /** Decodes the character at the front of `bs` and says how many bytes it
      took; `None` when the front is not a well-formed UTF-8 sequence (a stray
      continuation byte, a truncated or over-long form, a surrogate, or a value
      above U+10FFFF). */
  function DecodeChar(bs: Bytes): (r: Option<(char, nat)>)
    ensures r.Some? ==> 1 <= r.value.1 <= |bs| && r.value.1 <= 4
  {
    if |bs| == 0 then None
    else
      var b0: int := bs[0];
      if b0 < 0x80 then Some((b0 as char, 1))
      else if 0xC2 <= b0 < 0xE0 then
        if |bs| >= 2 && IsCont(bs[1]) then
          Some((((b0 - 0xC0) * 64 + (bs[1] as int - 0x80)) as char, 2))
        else None
      else if 0xE0 <= b0 < 0xF0 then
        if |bs| >= 3 && IsCont(bs[1]) && IsCont(bs[2]) then
          var cp := (b0 - 0xE0) * 4096 + (bs[1] as int - 0x80) * 64 + (bs[2] as int - 0x80);
          if cp < 0x800 || 0xD800 <= cp < 0xE000 then None else Some((cp as char, 3))
        else None
      else if 0xF0 <= b0 < 0xF5 then
        if |bs| >= 4 && IsCont(bs[1]) && IsCont(bs[2]) && IsCont(bs[3]) then
          var cp := (b0 - 0xF0) * 262144 + (bs[1] as int - 0x80) * 4096 + (bs[2] as int - 0x80) * 64 + (bs[3] as int - 0x80);
          if cp < 0x10000 || cp >= 0x110000 then None else Some((cp as char, 4))
        else None
      else None
  }

  /** Strict `bytes.decode()`: `None` stands for the `UnicodeDecodeError`. */
  function Decode(bs: Bytes): (r: Option<string>)
    ensures r.Some? ==> |r.value| <= |bs|
    ensures r.Some? ==> (r.value == [] <==> bs == [])
    ensures (forall i | 0 <= i < |bs| :: bs[i] < 0x80) ==> r.Some? && |r.value| == |bs|
    decreases |bs|
  {
    if bs == [] then Some([])
    else
      match DecodeChar(bs)
      case None => None
      case Some((c, k)) =>
        match Decode(bs[k..])
        case None => None
        case Some(rest) => Some([c] + rest)
  }

  lemma SplitBase64(n: int)
    requires 0 <= n
    ensures n == (n / 64) * 64 + n % 64
    ensures n / 4096 == (n / 64) / 64
    ensures n / 262144 == (n / 4096) / 64
  {
  }

  /** Decoding reads back exactly the character that was encoded, and consumes
      exactly its bytes. */
  lemma DecodeEncodeChar(c: char, rest: Bytes)
    ensures DecodeChar(EncodeChar(c) + rest) == Some((c, |EncodeChar(c)|))
  {
    var n := c as int;
    var bs := EncodeChar(c) + rest;
    SplitBase64(n);
    SplitBase64(n / 64);
    SplitBase64(n / 4096);
    if n < 0x80 {
    } else if n < 0x800 {
      assert bs[0] == 0xC0 + n / 64 && bs[1] == 0x80 + n % 64;
    } else if n < 0x10000 {
      assert bs[0] == 0xE0 + n / 4096;
      assert bs[1] == 0x80 + (n / 64) % 64 && bs[2] == 0x80 + n % 64;
      assert (bs[0] as int - 0xE0) * 4096 + (bs[1] as int - 0x80) * 64 + (bs[2] as int - 0x80) == n;
    } else {
      assert bs[0] == 0xF0 + n / 262144;
      assert bs[1] == 0x80 + (n / 4096) % 64 && bs[2] == 0x80 + (n / 64) % 64 && bs[3] == 0x80 + n % 64;
      assert (bs[0] as int - 0xF0) * 262144 + (bs[1] as int - 0x80) * 4096 + (bs[2] as int - 0x80) * 64 + (bs[3] as int - 0x80) == n;
    }
  }

  /** `s.encode().decode() == s` for every string. */
  lemma {:induction false} DecodeEncode(s: string)
    ensures Decode(Encode(s)) == Some(s)
  {
    if s != [] {
      var head := EncodeChar(s[0]);
      var tail := Encode(s[1..]);
      DecodeEncodeChar(s[0], tail);
      assert (head + tail)[|head|..] == tail;
      DecodeEncode(s[1..]);
      assert [s[0]] + s[1..] == s;
    }
  }
}

=== FILE: wrappers.dfy ===
/** Failure-carrying datatypes shared by the whole model: `Option` for a value
    that may be absent and `Result` for an operation that either succeeds with a
    value or fails with a tagged error (the model's stand-in for the exceptions
    and early `return None`s of the keystore code). */
module Wrappers {

  datatype Option<+T> = None | Some(value: T)

  datatype Result<+T, +E> = Ok(value: T) | Err(error: E)
}
